=== FILE: README.md ===
# MySekai analyser plugin: resource update and message handling

This project models the core of a chat-bot plugin in Dafny. The plugin takes a
MySekai save file (`.bin`) posted in a group chat, runs a decrypter and an
analyser on it, and sends back the rendered images. It also keeps a local
cache of game assets up to date.

The model covers three pieces of the plugin:

- **Resource update** (`utils/asset_updator.py`):
  - Phase 1 downloads the nine master-data tables.
  - Phase 2 derives the asset and static paths from those tables, and adds the hard-coded paths.
  - Phase 3 downloads every derived path with `download_asset`. A file already on disk is kept. Otherwise the `ondemand` mirror is tried, then `startapp`. Every `_rip` is deleted from the path first.
  - The disk is the set of destination paths present.
  - The network is a map from URL to the answer a GET receives.
  - Phase 3 is a sequential fold over the task list. The order in which the path sets are iterated is a parameter.
  - A 200 whose body then breaks off is an answer of its own. As in `download_file`, it leaves the destination present although the download failed. Phases 1 and 3 use the download as written, and a corrected whole-body download is stated beside it (see "## Findings").
- **Message rules** (`rules.py` and `is_valid_sekai_file` in `__init__.py`):
  - The rules are predicates over OneBot events. An event has a kind, a user id and a sequence of segments. Each segment is a type with a `data` dictionary of JSON values.
  - A `file_name` that is not text makes `.endswith` raise. That outcome is a third verdict, `Raise`.
- **Handler** (`process_sekai_file` and its helpers in `__init__.py`):
  - The choice of file segment.
  - The thresholds for downloads (at least 100 bytes), decryption (exit code 0 and JSON over 100 bytes) and images (over 1000 bytes).
  - The sentinel codes of `run_python_script`.
  - The sequence of replies sent for each way the pipeline can end.

These are pure functions over abstract outcomes: status codes, file sizes, existence flags and child-process endings. None of the I/O itself is modelled.

Modules, one per file: `Wrappers` (Option), `Decimal` (`str(int)` and its inverse), `Text` (`endswith`, `_rip` deletion), `PathSets` (numbered path families, unions over records, enumerations of a set), `AssetPaths` (phase 2), `AssetFetch` (download rules, phases 1 and 3, the whole update), `Events` (segments, events, truthiness), `Rules` (`rules.py`), `Outcomes` (the handler's thresholds and sentinels) and `Handler` (the file rule, the selection, and the handler's replies).

## Model

| member | source | states |
|---|---|---|
| Text.DeleteRip | mysekaianalyser_plugin/utils/asset_updator.py:36 | `path.replace("_rip", "")`: a single left-to-right pass that deletes non-overlapping occurrences and never lengthens the path. Its properties are stated by the four rows that follow. |
| Text.DeleteRipFirst | mysekaianalyser_plugin/utils/asset_updator.py:36 | The deletion keeps a prefix free of `_rip` as it is, drops the first occurrence after it, and resumes the scan right after that occurrence. |
| Text.DeleteRipLength | mysekaianalyser_plugin/utils/asset_updator.py:36 | The `_rip` deletion removes every occurrence: the normalised path is four characters shorter per occurrence of `_rip`. |
| Text.DeleteRipIdentity | mysekaianalyser_plugin/utils/asset_updator.py:36 | The normalisation leaves a path unchanged exactly when the path contains no `_rip`. |
| Text.DeleteRipNotIdempotent | mysekaianalyser_plugin/utils/asset_updator.py:36 | A single pass can create a new `_rip`: `_r_ripip` becomes `_rip`, which a second pass would empty. |
| Decimal.ParseNatToString | mysekaianalyser_plugin/utils/asset_updator.py:99 | The decimal text an index is formatted into reads back as that index. |
| Decimal.IntToString | mysekaianalyser_plugin/utils/asset_updator.py:92 | `str(id)` as the f-string renders it: a minus sign exactly for a negative id, then decimal digits. |
| Decimal.IntToStringInjective | mysekaianalyser_plugin/utils/asset_updator.py:92 | Distinct phenomenon ids, negative ones included, format to distinct texts, so they give distinct `phenom_bg` paths. |
| PathSets.MemberInjective | mysekaianalyser_plugin/utils/asset_updator.py:99 | Two indices give the same templated path only when they are equal. |
| PathSets.FamilySize | mysekaianalyser_plugin/utils/asset_updator.py:20 | A numbered template over the range `lo` to `hi`, upper end excluded, gives exactly `hi - lo` distinct paths. |
| PathSets.UnionOverMembers | mysekaianalyser_plugin/utils/asset_updator.py:88-99 | A path is added by a loop over a table exactly when some record of the table produces it. |
| PathSets.EnumerationSize | mysekaianalyser_plugin/utils/asset_updator.py:122-125 | Iterating over a set gives one task per element, so the number of tasks equals the size of the set. |
| AssetPaths.MusicBundles | mysekaianalyser_plugin/utils/asset_updator.py:100 | The `{m['id']: m['assetbundleName'] ...}` comprehension, built record by record in table order. Its keys and last-wins rule are stated by the two rows that follow. |
| AssetPaths.MusicBundlesKeys | mysekaianalyser_plugin/utils/asset_updator.py:100 | The keys of the `id → assetbundleName` map are exactly the ids in the `musics` table. |
| AssetPaths.MusicBundlesLastWins | mysekaianalyser_plugin/utils/asset_updator.py:100 | When an id repeats, the last record with that id sets its bundle name. |
| AssetPaths.Jackets | mysekaianalyser_plugin/utils/asset_updator.py:101-103 | The jackets the music-record loop adds, one per record whose `externalId` is a key of the bundle map. Membership is stated by the row that follows. |
| AssetPaths.JacketsMembers | mysekaianalyser_plugin/utils/asset_updator.py:101-103 | A jacket is added exactly when some music record's `externalId` is a known id whose bundle is that jacket's. |
| AssetPaths.JacketMembership | mysekaianalyser_plugin/utils/asset_updator.py:100-103 | A jacket is among the asset paths exactly when some record's `externalId` maps to its bundle. A record whose id is unknown or absent adds nothing. |
| AssetPaths.FixtureThumbnailsShape | mysekaianalyser_plugin/utils/asset_updator.py:97-99 | Each fixture record gives exactly the six distinct paths `mysekai/thumbnail/fixture/<name>_1.png` to `_6.png`. |
| AssetPaths.FixtureContribution | mysekaianalyser_plugin/utils/asset_updator.py:97-99 | All six thumbnails of every fixture record are among the asset paths. |
| AssetPaths.PhenomenonContribution | mysekaianalyser_plugin/utils/asset_updator.py:90-92 | Each phenomenon adds its thumbnail to the asset paths and `phenom_bg/<id>.png` to the static paths. |
| AssetPaths.AssetPathsOf | mysekaianalyser_plugin/utils/asset_updator.py:78-110 | `asset_paths` after phase 2: the paths each table's loop adds, plus the fixed sitemap, material and sprite paths. Its membership and size are stated by AssetPathsDeclarative, FixedAssetsCount and PathCountsLowerBound. |
| AssetPaths.StaticPathsOf | mysekaianalyser_plugin/utils/asset_updator.py:79-92 | `static_paths` after phase 2, before `STATIC_FILES` is added: the harvest-fixture icons and phenomenon backgrounds. Membership is stated by StaticPathsDeclarative. |
| AssetPaths.AssetPathsDeclarative | mysekaianalyser_plugin/utils/asset_updator.py:88-108 | A path is an asset path exactly when a per-kind rule produces it from a record, or it is one of the fixed paths. |
| AssetPaths.StaticPathsDeclarative | mysekaianalyser_plugin/utils/asset_updator.py:88-92 | A path is a static path exactly when it is the icon of a harvest fixture or the background of a phenomenon. |
| AssetPaths.CharacterSpritesCount | mysekaianalyser_plugin/utils/asset_updator.py:107-108 | The two sprite ranges give 80 distinct paths. |
| AssetPaths.FixedAssetsCount | mysekaianalyser_plugin/utils/asset_updator.py:105-108 | The fixed asset paths are 87 distinct paths: 4 sitemap textures, 3 material thumbnails and 80 sprites. |
| AssetPaths.StaticFilesCount | mysekaianalyser_plugin/utils/asset_updator.py:19-21 | `STATIC_FILES` holds five gate icons. |
| AssetPaths.Table | mysekaianalyser_plugin/utils/asset_updator.py:81-85 | `load_json_table`: a table that could not be read gives no rows, and a table that was read gives its rows unchanged. |
| AssetPaths.EmptyMetadataPaths | mysekaianalyser_plugin/utils/asset_updator.py:81-85 | With every table missing, the derivation gives only the 87 fixed asset paths and the 5 gate icons. |
| AssetPaths.PathCountsLowerBound | mysekaianalyser_plugin/utils/asset_updator.py:105-111 | Whatever the tables hold, `total_assets` is at least 87 and `total_statics` is at least 5. |
| AssetFetch.DownloadFile | mysekaianalyser_plugin/utils/asset_updator.py:23-33 | True, with the destination written, exactly when a 200 arrives with its whole body. A 200 whose body then breaks off gives false but leaves the destination present, because it was opened for writing first. Any other status, a timeout or a client error gives false and writes nothing. |
| AssetFetch.DownloadFileWhole | mysekaianalyser_plugin/utils/asset_updator.py:23-40 | Corrected: the destination is present afterwards exactly when the download succeeded. |
| AssetFetch.DownloadAsset | mysekaianalyser_plugin/utils/asset_updator.py:35-49 | A destination already present succeeds with no request. Otherwise `ondemand` is requested first, and `startapp` only when `ondemand` failed; the result is then the `startapp` outcome. Both URLs and the destination use the normalised path. The destination is present afterwards exactly when it was before or a mirror answered 200, so a failed call can leave it behind. |
| AssetFetch.DownloadAssetTwice | mysekaianalyser_plugin/utils/asset_updator.py:39-49 | A second call on the resulting disk makes no request and succeeds whenever the destination is present, including after a failed first call whose mirror answered 200. Otherwise it repeats the first call's requests and failure. |
| AssetFetch.DownloadAssetWhole | mysekaianalyser_plugin/utils/asset_updator.py:35-49 | Corrected: with whole-body downloads, the destination is present afterwards exactly when the call succeeded. |
| AssetFetch.WholeDownloadRetries | mysekaianalyser_plugin/utils/asset_updator.py:39-49 | Corrected: a destination on disk means it was downloaded, and a failed call is retried in full by the next one. |
| AssetFetch.BrokenBodyCountsAsDownloaded | mysekaianalyser_plugin/utils/asset_updator.py:23-49 | As written, when both mirrors answer 200 and the body breaks off, the call fails but leaves the destination present, and the next call reports success without a request. Corrected, nothing is left and the next call tries both mirrors again. |
| AssetFetch.RipVariantsShareTarget | mysekaianalyser_plugin/utils/asset_updator.py:36-40 | Two paths that differ only by `_rip` share one destination, so once the first is fetched the second makes no request. |
| AssetFetch.RunTasks | mysekaianalyser_plugin/utils/asset_updator.py:120-128 | Phase 3 gives one result per task and only adds files. Every successful task's destination is present afterwards. A task succeeds when its destination was present or a mirror serves it whole. A file is added only as the destination of a task for which a mirror answered 200. |
| AssetFetch.Phase3Tasks | mysekaianalyser_plugin/utils/asset_updator.py:121-125 | Phase 3 has one task per asset path, into the asset directory, followed by one task per static path, into the static directory, in iteration order. |
| AssetFetch.PresentTargetsFetchNothing | mysekaianalyser_plugin/utils/asset_updator.py:39-40 | When every destination is already present, phase 3 succeeds everywhere, requests nothing and changes nothing. |
| AssetFetch.MissingTargetsUnfetchable | mysekaianalyser_plugin/utils/asset_updator.py:42-49 | A destination still missing after phase 3 was missing before, and neither mirror answered 200 for it. |
| AssetFetch.RequestsForMissingTargets | mysekaianalyser_plugin/utils/asset_updator.py:39-49 | Phase 3 requests only the two mirror URLs of tasks whose destination was missing from the disk it started with. |
| AssetFetch.RerunKeepsDisk | mysekaianalyser_plugin/utils/asset_updator.py:39-49 | A second phase 3 over the disk the first one left leaves that disk unchanged. Each task succeeds exactly when its destination is on that disk, so wherever the first run succeeded. |
| AssetFetch.RerunRequestsShrink | mysekaianalyser_plugin/utils/asset_updator.py:39-49 | A second phase 3 requests no more URLs than the first, and only URLs the first requested. |
| AssetFetch.RerunFetchesNothingNew | mysekaianalyser_plugin/utils/asset_updator.py:120-128 | A second phase 3 over the disk the first one left writes nothing new. It succeeds wherever the first did and requests no more URLs, all of which the first run requested too. Every URL it requests is a mirror URL of a task whose destination the first run did not leave on disk. |
| AssetFetch.CountTrue | mysekaianalyser_plugin/utils/asset_updator.py:129 | The success count is the number of `True` results. It never exceeds the number of results, and equals it exactly when every result is true. |
| AssetFetch.CountTrueMonotone | mysekaianalyser_plugin/utils/asset_updator.py:129 | If results only turn from false to true, the count does not drop. |
| AssetFetch.FetchTables | mysekaianalyser_plugin/utils/asset_updator.py:64-71 | Phase 1 makes one request per table, starting with the first table, whether or not the table is present. Files are only added, and only the files of tables whose URL answered 200. |
| AssetFetch.FetchTablesOutcome | mysekaianalyser_plugin/utils/asset_updator.py:66-71 | Table `i` is requested at position `i`. It succeeds exactly when its URL answers 200 with a whole body. Its file is present afterwards whenever the URL answered 200, even when the body broke off and the table is reported as failed. |
| AssetFetch.FetchTablesCovers | mysekaianalyser_plugin/utils/asset_updator.py:66-71 | After phase 1, every table whose URL answers 200 is present, whether or not its body arrived whole. |
| AssetFetch.FetchTablesStable | mysekaianalyser_plugin/utils/asset_updator.py:64-71 | Over a disk that already holds every table whose URL answers 200, phase 1 leaves the disk unchanged. |
| AssetFetch.TasksFor | mysekaianalyser_plugin/utils/asset_updator.py:122-125 | Each iterated path becomes one task under the given directory, in iteration order. |
| AssetFetch.DownloadTwice | mysekaianalyser_plugin/utils/asset_updator.py:64-129 | Phases 1 and 3 run again over the disk they left: the disk is unchanged and there are at least as many successes. Phase 1 requests every table again. Phase 3 requests only asset URLs the first run requested, only for tasks whose destination the first run did not leave on disk, and no asset URL at all when the first run's phase 3 succeeded everywhere. |
| AssetFetch.Download | mysekaianalyser_plugin/utils/asset_updator.py:64-128 | The two fetching phases in order: phase 1 over the table names, then phase 3 over the task list on the disk phase 1 left. Its rerun behaviour is stated by DownloadTwice. |
| AssetFetch.Reported | mysekaianalyser_plugin/utils/asset_updator.py:64-131 | For fixed path orders, the totals are the lengths of the orders and the task count is their sum. The counts of fetched tables and downloaded files are the True results of phases 1 and 3, at most one per table and per task. The disk and requests reported are those of phase 3, and files are only added. |
| AssetFetch.Update | mysekaianalyser_plugin/utils/asset_updator.py:55-131 | At most one table per name is counted. The task count is the sum of the two totals, and the success count never exceeds it. Files are only added. |
| AssetFetch.UpdateDownloads | mysekaianalyser_plugin/utils/asset_updator.py:110-131 | The reported figures are exact. The asset total is `len(asset_paths)`, at least 87. The static total is the size of the static paths with `STATIC_FILES`, at least 5. The fetched-table and downloaded counts are the True results of phases 1 and 3. There is one task per path. |
| AssetFetch.ReportedTwice | mysekaianalyser_plugin/utils/asset_updator.py:64-131 | The two-call property of `UpdateTwice`, for fixed path orders. |
| AssetFetch.UpdateTwice | mysekaianalyser_plugin/utils/asset_updator.py:55-131 | A second update over the disk the first left changes nothing on disk and reports at least as many successes. Phase 1 requests every table again. Phase 3 requests only asset URLs the first requested, only for paths whose destination the first left missing, and no asset URL at all when the first downloaded everything. |
| Events.FileName | mysekaianalyser_plugin/__init__.py:110 | A missing `file_name` reads as the empty text. A stored non-text value makes `.endswith` raise. |
| Events.FileCheck | mysekaianalyser_plugin/__init__.py:110-113 | The file test raises exactly when the name is not text. It passes exactly when the name ends in `.bin` and one of `file_id`, `id` or `url` is truthy. |
| Rules.ReplyScan | mysekaianalyser_plugin/rules.py:12-22 | The scan rejects an empty message, and rejects at once when the first segment is not a reply. |
| Rules.IsReplyToSekaiFile | mysekaianalyser_plugin/rules.py:9-22 | An event that is not a group message is rejected; a group message is judged by the scan. |
| Rules.ReplyScanRejects | mysekaianalyser_plugin/rules.py:12-22 | However many replies lead the message, the scan ends in false. The file branch is never reached. |
| Rules.ReplyRuleNeverAccepts | mysekaianalyser_plugin/rules.py:8-24 | The reply rule rejects every event and never raises. |
| Rules.Whitelist | mysekaianalyser_plugin/rules.py:6 | A `None` setting is the empty whitelist; a configured list is used as it is. |
| Rules.IsValidUser | mysekaianalyser_plugin/rules.py:26-30 | An empty whitelist admits every event. A non-empty one admits exactly the events from the users it lists. Under it, an event without a `user_id`, such as a heartbeat, raises. |
| Rules.WhitelistAdmits | mysekaianalyser_plugin/rules.py:6-30 | Under a `None` or empty setting every event is admitted. Under a non-empty setting, exactly the listed users' events are admitted, and an event without a `user_id` raises. |
| Outcomes.DownloadFromUrl | mysekaianalyser_plugin/__init__.py:45-70 | A download succeeds exactly when the URL is non-empty, the status is 200, nothing raises, and at least 100 bytes are saved. |
| Outcomes.DownloadSizeThreshold | mysekaianalyser_plugin/__init__.py:53-67 | With a URL and status 200, 100 bytes is the smallest file accepted and 99 bytes are rejected. A file that is accepted would be accepted at any larger size. |
| Outcomes.RunPythonScript | mysekaianalyser_plugin/__init__.py:73-100 | A missing script gives -1, a timeout -2 and any other exception -3. Otherwise the child's own return code is returned. |
| Outcomes.ZeroMeansExited | mysekaianalyser_plugin/__init__.py:73-100 | Return code 0 means the script existed and its child exited with 0. |
| Outcomes.SentinelsCollide | mysekaianalyser_plugin/__init__.py:75-100 | A child exiting with -2 cannot be told from a timeout, nor one exiting with -1 from a missing script. |
| Outcomes.DecryptSucceeded | mysekaianalyser_plugin/__init__.py:180 | Decryption succeeded exactly when the return code is 0 and the JSON file exists with more than 100 bytes. |
| Outcomes.DecryptNeedsCleanExit | mysekaianalyser_plugin/__init__.py:169-180 | Decryption counts as successful only when the decrypter child exited with 0. After such an exit, only the size of the JSON file decides. |
| Outcomes.ValidImages | mysekaianalyser_plugin/__init__.py:201-205 | The images kept are exactly the listed ones that exist with more than 1000 bytes, in list order. |
| Outcomes.TargetImagesInOrder | mysekaianalyser_plugin/__init__.py:30-33 | The merged map is sent before the summary chart, each only when valid. |
| Handler.FileScan | mysekaianalyser_plugin/__init__.py:108-116 | Acceptance needs a matching file segment, and raising needs a file segment with a non-text name. The scan rejects exactly when no segment does either. |
| Handler.IsValidSekaiFile | mysekaianalyser_plugin/__init__.py:105-116 | Every event that is not a group message is rejected; a group message is judged by the scan. |
| Handler.AcceptIff | mysekaianalyser_plugin/__init__.py:106-116 | When no file name is non-text, a group message is accepted exactly when some segment is a `file` whose name ends in `.bin` and which has a truthy `file_id`, `id` or `url`. |
| Handler.FileScanOrderIrrelevant | mysekaianalyser_plugin/__init__.py:108-116 | When no segment raises, any reordering of the segments gives the same verdict. |
| Handler.FileScanOrderMatters | mysekaianalyser_plugin/__init__.py:108-116 | When a segment can raise, order matters: a bad name ahead of a match raises, and a match ahead of a bad name accepts. |
| Handler.NonFileSegmentsIrrelevant | mysekaianalyser_plugin/__init__.py:108-116 | Inserting or dropping a segment of any type other than `file` does not change the verdict. |
| Handler.SelectFile | mysekaianalyser_plugin/__init__.py:129-130 | The handler picks the first `file` segment whose name ends in `.bin`, with no check for an id or a URL. A non-text name met earlier raises. |
| Handler.AcceptedImpliesSelected | mysekaianalyser_plugin/__init__.py:129-133 | Whenever the rule accepted the message, the handler selects a segment. |
| Handler.SelectionMayLackUrl | mysekaianalyser_plugin/__init__.py:129-146 | The selected segment can differ from the matched one: a `.bin` file without a URL ahead of a matching one is picked, and no URL is fetched for it. |
| Handler.FetchSelected | mysekaianalyser_plugin/__init__.py:136-146 | A download happens only for a truthy URL. For a truthy text URL the result is exactly the download rule's verdict; any other URL fails. |
| Handler.Process | mysekaianalyser_plugin/__init__.py:135-212 | For a selected `.bin` segment, the file is acknowledged first under its stored `file_name`. The first failing step sends its own message and ends the body by `finish()`: a failed download, a failed copy, a missing decrypter, a failed decryption, or no valid image. The body returns normally exactly when every step passes and some image is valid; the valid images then follow the completion message. |
| Handler.Body | mysekaianalyser_plugin/__init__.py:129-212 | The body raises exactly when the selection raises. It finishes silently when nothing is selected, and otherwise runs the steps on the selected segment. |
| Handler.HandleAsWritten | mysekaianalyser_plugin/__init__.py:127-223 | As written, every `finish()` in the body is followed by the crash message; only a normal return avoids it. |
| Handler.Handle | mysekaianalyser_plugin/__init__.py:127-223 | Corrected: only a genuine exception is answered by the crash message alone. Otherwise the body's own replies are sent. |
| Handler.FinishReportedAsCrash | mysekaianalyser_plugin/__init__.py:145-223 | A 404 on the download gives download-failed followed by the crash message as written, and download-failed alone when corrected. |
| Handler.DecryptFailureReportedAsCrash | mysekaianalyser_plugin/__init__.py:169-223 | A decrypter exiting with 1 gives decryption-failed followed by the crash message as written, and decryption-failed alone when corrected. |
| Handler.SilentEndIsNotSilent | mysekaianalyser_plugin/__init__.py:122-223 | The `if not file_seg` branch is dead code behind the rule: an accepted message always selects a segment. Were it reached, it would send the crash message as written, and nothing when corrected. |
| Handler.AsWrittenFailsTwice | mysekaianalyser_plugin/__init__.py:147-223 | As written, every failed step sends two failure messages: its own, then the crash message. |
| Handler.PicturesOnlyOnSuccess | mysekaianalyser_plugin/__init__.py:145-210 | A picture is sent only after a fetched download, a copy, the decrypter's clean exit, and only for a valid target image. The pictures follow the completion message in list order. |
| Handler.AtMostOneFailure | mysekaianalyser_plugin/__init__.py:147-212 | Corrected, the handler sends at most one failure message, and always as its last reply. |
| Handler.AcceptedIsAcknowledged | mysekaianalyser_plugin/__init__.py:129-138 | An event the rule accepted always gets a first reply that acknowledges a `.bin` file. |

## Left out

- `utils/decrypter.py` (AES-CBC decryption and msgpack decoding) is not part of this model. Only how its child process ends and the JSON file it leaves are modelled, as parameters.
- Network and file I/O are not modelled. This covers the aiohttp sessions, aiofiles writes, `mkdir`, `tempfile`, `shutil.copy2`, subprocess execution, `tqdm` and logging. Their outcomes are inputs: the answer map, `copyOk`, `decryptRun`, `json` and `images`.
- Phase 3 runs its downloads concurrently under `asyncio.gather`. Here they run one after another in iteration order. Order independence is not claimed, since two paths can collapse onto one destination after the `_rip` deletion.
- Phase 1 gathers with `return_exceptions=True`. An exception other than a timeout or a client error, such as a failed file write, is not modelled: every download ends with a status, a broken body, a timeout or a client error.
- FetchTablesOutcome: the disk records which files exist, not their contents. A broken body that truncates a table already present leaves it present here, and the truncated contents are not modelled; phase 2 takes the tables it reads back as an input.
- AssetFetch.Update takes the tables phase 2 reads back (`md`) as an input. It does not derive them from the files phase 1 wrote, because the JSON contents are not modelled.
- AssetFetch.UpdateTwice assumes both updates read back the same tables.
- AssetFetch.Update takes the list of table names as a parameter. `update_resources` always passes `METADATA_FILES` (AssetPaths.MetadataFiles, nine names), and every property holds for any list.
- Events.Value has no float, list or object. A `file_name`, `file_id` or `url` of one of those kinds in a file segment is not modelled; the model covers null, booleans, integers and text there.
- A table that parses as JSON but is not a list (an object, a number) is not modelled: phase 2 takes each table as a list of records, while iterating such a value yields its keys or raises `TypeError`.
- Records are typed with their fields present. A `KeyError` from a record without `assetbundleName`, `iconAssetbundleName`, `id` or the rarity field is not modelled.
- The rarity type of a harvest fixture is taken as text, and ids are integers. Other JSON types in those fields are not modelled.
- The tables `gameCharacterUnits` and `mysekaiGameCharacterUnitGroups` are downloaded but never read. They appear only in the list of table names.
- The settings (`RESOURCE_PATH`, `TARGET_REGION`, the base URLs) are fixed text, with `TARGET_REGION = "jp"` as the effective value. Paths are joined with `/` and not normalised.
- The regex rewrite of `INPUT_FILE` in `configs.py` and its restoration are not modelled. A failure while reading or writing that file is not modelled either. Both depend on Python regex semantics and on file writes.
- The return code of `main.py` is ignored by the handler, and so by the model. Only the images present afterwards matter.
- Sending a reply can fail (`ActionFailed`); the model assumes every send succeeds. The sender's nickname and the text of each reply are not modelled; each reply stands for its fixed text. The 20-character truncation of the error text is cosmetic.
- The reply for a selected segment records its `file_name`. The temporary local path built from it is not modelled.
- The import-time problems are not modelled:
  - `rules.py` uses `nonebot` without importing it.
  - A configuration without `msa_white_list` makes reading the setting fail when `rules.py` loads. Rules.Whitelist models only a `None` or a configured list.
  - The plugin logs a missing `PROJECT_ROOT`.
  - `rules.py` is not imported by the plugin.

  Only the predicates themselves are modelled.
- The framework's handling of a rule that raises lies outside these files. The model reports such a rule as `Raise` and goes no further.
- Rules.IsValidUser: whitelist entries are integers. A whitelist configured with text ids compares differently in Python and is not modelled.
- The progress messages and the timeouts (30, 60 and 300 seconds) are not modelled. A timeout appears only as an outcome: `TimedOut` for a GET and for a child process.

## Findings

| source | as written | input that shows it | evidently intended | confidence | as-written member | corrected member |
|---|---|---|---|---|---|---|
| mysekaianalyser_plugin/__init__.py:127-223 | Each `finish()` in the body raises nonebot's `FinishedException`, which is an `Exception`. The outer `except Exception` catches it and then sends "解析出错：..." as well. | A `.bin` file segment whose URL answers 404 gets "文件下载失败，请重新上传" followed by the crash message. A decrypter that exits with 1 gives "文件解密失败，可能文件损坏" followed by the crash message. | `finish()` ends the handler with its own message, and the crash message follows only a genuine exception. Each `finish("…")` carries a complete failure message of its own, and the comment `# 无文件，静默结束` ("no file, end silently") at line 132 expects `finish()` to end the handler quietly. | high, not executed | Handler.HandleAsWritten (shown by Handler.FinishReportedAsCrash, Handler.DecryptFailureReportedAsCrash and Handler.AsWrittenFailsTwice) | Handler.Handle (Handler.AtMostOneFailure, Handler.PicturesOnlyOnSuccess) |
| mysekaianalyser_plugin/utils/asset_updator.py:23-49 | `download_file` opens the destination for writing on a 200 before it reads the body. A body read that then times out or breaks off returns False and leaves an empty or partial file. `download_asset` treats any existing destination as already downloaded. | Both mirrors answer 200 for a path and the connection drops while the body is read. The call fails and leaves the file behind, and every later update returns True for that path without a request. | A destination on disk is one whose download completed, as the comment `# 已存在，跳过` ("already exists, skip") at line 40 assumes. A failed download leaves nothing, and the next update retries it. | medium, not executed | AssetFetch.DownloadAsset (shown by AssetFetch.BrokenBodyCountsAsDownloaded and AssetFetch.DownloadAssetTwice) | AssetFetch.DownloadAssetWhole, built on AssetFetch.DownloadFileWhole (AssetFetch.WholeDownloadRetries) |

=== FILE: asset_fetch.dfy ===
/**
 The fetching side of the resource update: `download_file`, the
 cache-or-mirror decision of `download_asset`, phase 1 (metadata tables),
 phase 3 (every derived path) and the whole update with the counts it
 reports.

 The local disk is the set of destination paths that exist; the network is a
 map from URL to the answer a GET receives. `update_resources` runs the
 downloads of phase 3 concurrently; here they are the sequential fold over
 the task list, in the order the path sets are iterated.
 */
module AssetFetch {
  import Text
  import opened PathSets
  import opened AssetPaths

  const TargetRegion: string := "jp"
  const AssetBaseUrl: string := "https://sekai-assets-bdf29c81.seiunx.net/" + TargetRegion + "-assets/"
  const MasterdataBaseUrl: string := "https://raw.githubusercontent.com/Sekai-World/sekai-master-db-diff/main/"

  /**
   What a GET ends with: an HTTP status whose body arrives whole, a 200 whose
   body read then times out or breaks off, a timeout, or a client error.
   */
  datatype Response = Status(code: int) | BrokenBody | TimedOut | ClientFailure

  /** The answer each URL gets; a URL the map does not list cannot be reached. */
  type Web = map<string, Response>

  function Answer(web: Web, url: string): Response {
    if url in web then web[url] else ClientFailure
  }

  predicate Serves(web: Web, url: string) {
    Answer(web, url) == Status(200)
  }

  /** The URL answers 200, whether or not its body then arrives whole. */
  predicate Opens(web: Web, url: string) {
    Answer(web, url) == Status(200) || Answer(web, url) == BrokenBody
  }

  /** `dir / rel`. */
  function Join(dir: string, rel: string): string {
    dir + "/" + rel
  }

  datatype Fetch = Fetch(ok: bool, cache: set<string>)

  /**
   `download_file`: true exactly when a 200 arrives with its whole body. A
   200 opens `dest` for writing before the body is read, so a body that
   breaks off returns false with `dest` left on disk; any other status, a
   timeout or a client error is false and writes nothing.
   */
  function DownloadFile(web: Web, url: string, dest: string, cache: set<string>): (f: Fetch)
    ensures f.ok <==> Serves(web, url)
    ensures f.ok ==> f.cache == cache + {dest}
    ensures !f.ok ==> f.cache == if Opens(web, url) then cache + {dest} else cache
  {
    match Answer(web, url)
    case Status(code) => if code == 200 then Fetch(true, cache + {dest}) else Fetch(false, cache)
    case BrokenBody => Fetch(false, cache + {dest})
    case TimedOut => Fetch(false, cache)
    case ClientFailure => Fetch(false, cache)
  }

  /**
   `download_file` as the existence check of `download_asset` needs it: the
   destination appears only with a whole body, so a failed download leaves
   nothing behind.
   */
  function DownloadFileWhole(web: Web, url: string, dest: string, cache: set<string>): (f: Fetch)
    ensures f.ok <==> Serves(web, url)
    ensures f.cache == if f.ok then cache + {dest} else cache
  {
    if Serves(web, url) then Fetch(true, cache + {dest}) else Fetch(false, cache)
  }

  function OndemandUrl(p: string): string {
    AssetBaseUrl + "ondemand/" + p
  }

  function StartappUrl(p: string): string {
    AssetBaseUrl + "startapp/" + p
  }

  /** One call of `download_asset`: a derived path and the directory it is stored under. */
  datatype Task = Task(path: string, dir: string)

  /** The path with every `_rip` deleted, used for the destination and both URLs. */
  function Normalized(t: Task): string {
    Text.DeleteRip(t.path)
  }

  function Target(t: Task): string {
    Join(t.dir, Normalized(t))
  }

  /** One of the two mirrors answers 200 with a whole body for the task. */
  predicate Fetchable(web: Web, t: Task) {
    Serves(web, OndemandUrl(Normalized(t))) || Serves(web, StartappUrl(Normalized(t)))
  }

  /** One of the two mirrors answers 200 for the task, so a download opens its destination. */
  predicate Opened(web: Web, t: Task) {
    Opens(web, OndemandUrl(Normalized(t))) || Opens(web, StartappUrl(Normalized(t)))
  }

  /** `u` is one of the two mirror URLs of the task. */
  predicate MirrorUrl(u: string, t: Task) {
    u == OndemandUrl(Normalized(t)) || u == StartappUrl(Normalized(t))
  }

  datatype Attempt = Attempt(ok: bool, cache: set<string>, requests: seq<string>)

  /**
   `download_asset`: a destination already on disk succeeds with no request;
   otherwise the `ondemand` mirror is asked first, and the `startapp` mirror
   only when it failed, whose answer is then the result. A mirror that
   answered 200 leaves the destination on disk even when the call fails.
   */
  function DownloadAsset(web: Web, cache: set<string>, t: Task): (a: Attempt)
    ensures Target(t) in cache ==> a == Attempt(true, cache, [])
    ensures Target(t) !in cache ==> 1 <= |a.requests| <= 2 && a.requests[0] == OndemandUrl(Normalized(t))
    ensures Target(t) !in cache ==> (|a.requests| == 2 <==> !Serves(web, OndemandUrl(Normalized(t))))
    ensures |a.requests| == 2 ==>
      a.requests[1] == StartappUrl(Normalized(t)) && (a.ok <==> Serves(web, StartappUrl(Normalized(t))))
    ensures a.ok <==> Target(t) in cache || Fetchable(web, t)
    ensures a.cache == if Opened(web, t) then cache + {Target(t)} else cache
  {
    var p := Text.DeleteRip(t.path);
    var dest := Join(t.dir, p);
    if dest in cache then Attempt(true, cache, [])
    else
      var first := DownloadFile(web, OndemandUrl(p), dest, cache);
      if first.ok then Attempt(true, first.cache, [OndemandUrl(p)])
      else
        var second := DownloadFile(web, StartappUrl(p), dest, first.cache);
        Attempt(second.ok, second.cache, [OndemandUrl(p), StartappUrl(p)])
  }

  /**
   A second call on the disk the first left behind asks for nothing and
   succeeds whenever the destination is there, which includes a first call
   that failed after a mirror answered 200; otherwise it repeats the first.
   */
  lemma DownloadAssetTwice(web: Web, cache: set<string>, t: Task)
    ensures var first := DownloadAsset(web, cache, t);
      var second := DownloadAsset(web, first.cache, t);
      && (Target(t) in first.cache <==> first.ok || Opened(web, t))
      && (Target(t) in first.cache ==> second == Attempt(true, first.cache, []))
      && (Target(t) !in first.cache ==> second == first)
  {
  }

  /** `download_asset` built on `DownloadFileWhole`: the destination is present afterwards exactly when the call succeeded. */
  function DownloadAssetWhole(web: Web, cache: set<string>, t: Task): (a: Attempt)
    ensures a.ok <==> Target(t) in cache || Fetchable(web, t)
    ensures a.cache == if a.ok then cache + {Target(t)} else cache
    ensures Target(t) !in cache ==> a.requests != [] && a.requests[0] == OndemandUrl(Normalized(t))
  {
    var p := Text.DeleteRip(t.path);
    var dest := Join(t.dir, p);
    if dest in cache then Attempt(true, cache, [])
    else
      var first := DownloadFileWhole(web, OndemandUrl(p), dest, cache);
      if first.ok then Attempt(true, first.cache, [OndemandUrl(p)])
      else
        var second := DownloadFileWhole(web, StartappUrl(p), dest, first.cache);
        Attempt(second.ok, second.cache, [OndemandUrl(p), StartappUrl(p)])
  }

  /**
   With whole-body downloads the existence check means what its comment says:
   a destination on disk was downloaded, and a failed call is retried in full
   by the next one.
   */
  lemma WholeDownloadRetries(web: Web, cache: set<string>, t: Task)
    ensures var first := DownloadAssetWhole(web, cache, t);
      var second := DownloadAssetWhole(web, first.cache, t);
      && (Target(t) in first.cache <==> first.ok)
      && (first.ok ==> second == Attempt(true, first.cache, []))
      && (!first.ok ==> second == first && Target(t) !in cache)
  {
  }

  /**
   As written, a 200 whose body breaks off on both mirrors leaves the
   destination on disk although the call failed, and the next call reports
   it as downloaded without any request; with whole-body downloads the call
   leaves nothing, and the next call tries both mirrors again.
   */
  lemma BrokenBodyCountsAsDownloaded(cache: set<string>, t: Task)
    requires Target(t) !in cache
    ensures var web := map[OndemandUrl(Normalized(t)) := BrokenBody, StartappUrl(Normalized(t)) := BrokenBody];
      var first := DownloadAsset(web, cache, t);
      var whole := DownloadAssetWhole(web, cache, t);
      && !first.ok && Target(t) in first.cache
      && DownloadAsset(web, first.cache, t) == Attempt(true, first.cache, [])
      && !whole.ok && Target(t) !in whole.cache
      && DownloadAssetWhole(web, whole.cache, t) == whole
  {
  }

  /** Two paths that differ only by `_rip` share one destination: the second finds the first's file. */
  lemma RipVariantsShareTarget(web: Web, cache: set<string>, t: Task, u: Task)
    requires t.dir == u.dir && Normalized(t) == Normalized(u)
    ensures Target(t) == Target(u)
    ensures DownloadAsset(web, cache, t).ok ==> DownloadAsset(web, DownloadAsset(web, cache, t).cache, u).requests == []
  {
  }

  // ---------------------------------------------------------------------
  // Phase 3

  datatype Run = Run(results: seq<bool>, cache: set<string>, requests: seq<string>)

  /**
   The downloads of phase 3, one after the other, each seeing the files the
   earlier ones wrote. A task whose destination was present or which a mirror
   serves succeeds; a file is added only for a task some mirror answered 200.
   */
  function RunTasks(web: Web, cache: set<string>, tasks: seq<Task>): (r: Run)
    ensures |r.results| == |tasks|
    ensures cache <= r.cache
    ensures forall i :: 0 <= i < |tasks| && r.results[i] ==> Target(tasks[i]) in r.cache
    ensures forall i :: 0 <= i < |tasks| && (Target(tasks[i]) in cache || Fetchable(web, tasks[i])) ==> r.results[i]
    ensures forall x :: x in r.cache ==>
      x in cache || exists i :: 0 <= i < |tasks| && x == Target(tasks[i]) && Opened(web, tasks[i])
    decreases |tasks|
  {
    if tasks == [] then Run([], cache, [])
    else
      var a := DownloadAsset(web, cache, tasks[0]);
      var rest := RunTasks(web, a.cache, tasks[1..]);
      RunTasksStep(web, cache, tasks, a, rest);
      Run([a.ok] + rest.results, rest.cache, a.requests + rest.requests)
  }

  /** The first task's attempt followed by the run of the others has the properties `RunTasks` promises. */
  lemma RunTasksStep(web: Web, cache: set<string>, tasks: seq<Task>, a: Attempt, rest: Run)
    requires tasks != []
    requires a.ok <==> Target(tasks[0]) in cache || Fetchable(web, tasks[0])
    requires a.cache == if Opened(web, tasks[0]) then cache + {Target(tasks[0])} else cache
    requires |rest.results| == |tasks[1..]|
    requires a.cache <= rest.cache
    requires forall i :: 0 <= i < |tasks[1..]| && rest.results[i] ==> Target(tasks[1..][i]) in rest.cache
    requires forall i :: 0 <= i < |tasks[1..]| && (Target(tasks[1..][i]) in a.cache || Fetchable(web, tasks[1..][i])) ==>
      rest.results[i]
    requires forall x :: x in rest.cache ==>
      x in a.cache || exists i :: 0 <= i < |tasks[1..]| && x == Target(tasks[1..][i]) && Opened(web, tasks[1..][i])
    ensures var results := [a.ok] + rest.results;
      && (forall i :: 0 <= i < |tasks| && results[i] ==> Target(tasks[i]) in rest.cache)
      && (forall i :: 0 <= i < |tasks| && (Target(tasks[i]) in cache || Fetchable(web, tasks[i])) ==> results[i])
      && (forall x :: x in rest.cache ==>
            x in cache || exists i :: 0 <= i < |tasks| && x == Target(tasks[i]) && Opened(web, tasks[i]))
  {
    assert forall i :: 1 <= i < |tasks| ==> tasks[1..][i - 1] == tasks[i];
    forall x | x in rest.cache && x !in cache
      ensures exists i :: 0 <= i < |tasks| && x == Target(tasks[i]) && Opened(web, tasks[i])
    {
      if x !in a.cache {
        var j :| 0 <= j < |tasks[1..]| && x == Target(tasks[1..][j]) && Opened(web, tasks[1..][j]);
        assert tasks[j + 1] == tasks[1..][j];
      } else {
        assert x == Target(tasks[0]) && Opened(web, tasks[0]);
      }
    }
  }

  /** When every destination is already on disk, phase 3 succeeds everywhere and asks for nothing. */
  lemma {:induction false} PresentTargetsFetchNothing(web: Web, cache: set<string>, tasks: seq<Task>)
    requires forall i :: 0 <= i < |tasks| ==> Target(tasks[i]) in cache
    ensures RunTasks(web, cache, tasks).requests == []
    ensures RunTasks(web, cache, tasks).cache == cache
    ensures forall i :: 0 <= i < |tasks| ==> RunTasks(web, cache, tasks).results[i]
  {
    if tasks != [] {
      assert forall i :: 1 <= i < |tasks| ==> tasks[1..][i - 1] == tasks[i];
      PresentTargetsFetchNothing(web, cache, tasks[1..]);
    }
  }

  /** A destination that is still missing after phase 3 was missing before it and no mirror answered 200 for it. */
  lemma {:induction false} MissingTargetsUnfetchable(web: Web, cache: set<string>, tasks: seq<Task>, i: nat)
    requires i < |tasks|
    requires Target(tasks[i]) !in RunTasks(web, cache, tasks).cache
    ensures Target(tasks[i]) !in cache
    ensures !Opened(web, tasks[i]) && !Fetchable(web, tasks[i])
    decreases |tasks|
  {
    var a := DownloadAsset(web, cache, tasks[0]);
    if i > 0 {
      assert tasks[1..][i - 1] == tasks[i];
      MissingTargetsUnfetchable(web, a.cache, tasks[1..], i - 1);
    }
  }

  /** Phase 3 asks only for the mirror URLs of tasks whose destination was not on the disk it started from. */
  lemma {:induction false} RequestsForMissingTargets(web: Web, cache: set<string>, tasks: seq<Task>)
    ensures forall u :: u in RunTasks(web, cache, tasks).requests ==>
      exists i :: 0 <= i < |tasks| && Target(tasks[i]) !in cache && MirrorUrl(u, tasks[i])
    decreases |tasks|
  {
    if tasks != [] {
      var a := DownloadAsset(web, cache, tasks[0]);
      var rest := RunTasks(web, a.cache, tasks[1..]);
      RequestsForMissingTargets(web, a.cache, tasks[1..]);
      assert RunTasks(web, cache, tasks).requests == a.requests + rest.requests;
      forall u | u in a.requests + rest.requests
        ensures exists i :: 0 <= i < |tasks| && Target(tasks[i]) !in cache && MirrorUrl(u, tasks[i])
      {
        if u in a.requests {
          assert Target(tasks[0]) !in cache && MirrorUrl(u, tasks[0]);
        } else {
          var j :| 0 <= j < |tasks[1..]| && Target(tasks[1..][j]) !in a.cache && MirrorUrl(u, tasks[1..][j]);
          assert tasks[1..][j] == tasks[j + 1];
        }
      }
    }
  }

  /**
   One download repeated over a larger disk `c`: when its destination is on
   `c` nothing is requested, and otherwise the repeat fails just as the first
   attempt did, with the same requests.
   */
  lemma RerunStep(web: Web, cache: set<string>, t: Task, c: set<string>)
    requires DownloadAsset(web, cache, t).cache <= c
    requires Target(t) !in c ==> Target(t) !in cache && !Opened(web, t)
    ensures var a1 := DownloadAsset(web, cache, t);
      var a2 := DownloadAsset(web, c, t);
      && a2.cache == c
      && (a2.ok <==> Target(t) in c)
      && (a1.ok ==> a2.ok)
      && (Target(t) in c ==> a2.requests == [])
      && (Target(t) !in c ==> a2.requests == a1.requests)
  {
  }

  /**
   Running phase 3 again over the disk the first run left, with the mirrors
   answering as before, writes nothing new, succeeds wherever the first run
   did, and requests only URLs the first run requested, no more of them, and
   only for tasks whose destination the first run did not leave on disk.
   */
  lemma RerunFetchesNothingNew(web: Web, cache: set<string>, tasks: seq<Task>)
    ensures var first := RunTasks(web, cache, tasks);
      var second := RunTasks(web, first.cache, tasks);
      && second.cache == first.cache
      && (forall i :: 0 <= i < |tasks| ==> (second.results[i] <==> Target(tasks[i]) in first.cache))
      && (forall i :: 0 <= i < |tasks| ==> (first.results[i] ==> second.results[i]))
      && |second.requests| <= |first.requests|
      && (forall u :: u in second.requests ==> u in first.requests)
      && (forall u :: u in second.requests ==>
            exists i :: 0 <= i < |tasks| && Target(tasks[i]) !in first.cache && MirrorUrl(u, tasks[i]))
  {
    RerunKeepsDisk(web, cache, tasks);
    RerunRequestsShrink(web, cache, tasks);
    RequestsForMissingTargets(web, RunTasks(web, cache, tasks).cache, tasks);
  }

  /**
   The second run of phase 3 leaves the disk as the first left it and
   succeeds exactly where a destination is there: a task whose mirror
   answered 200 already has its destination on that disk.
   */
  lemma RerunKeepsDisk(web: Web, cache: set<string>, tasks: seq<Task>)
    ensures var first := RunTasks(web, cache, tasks);
      var second := RunTasks(web, first.cache, tasks);
      && second.cache == first.cache
      && (forall i :: 0 <= i < |tasks| ==> (second.results[i] <==> Target(tasks[i]) in first.cache))
      && (forall i :: 0 <= i < |tasks| ==> (first.results[i] ==> second.results[i]))
  {
    var first := RunTasks(web, cache, tasks);
    var second := RunTasks(web, first.cache, tasks);
    forall x | x in second.cache
      ensures x in first.cache
    {
      if x !in first.cache {
        var i :| 0 <= i < |tasks| && x == Target(tasks[i]) && Opened(web, tasks[i]);
        MissingTargetsUnfetchable(web, cache, tasks, i);
      }
    }
  }

  /** The second run of phase 3 requests no more URLs than the first, and only URLs the first requested. */
  lemma {:induction false} RerunRequestsShrink(web: Web, cache: set<string>, tasks: seq<Task>)
    ensures var first := RunTasks(web, cache, tasks);
      var second := RunTasks(web, first.cache, tasks);
      && |second.requests| <= |first.requests|
      && (forall u :: u in second.requests ==> u in first.requests)
    decreases |tasks|
  {
    if tasks != [] {
      var t, rest := tasks[0], tasks[1..];
      var first := RunTasks(web, cache, tasks);
      var a1 := DownloadAsset(web, cache, t);
      var rest1 := RunTasks(web, a1.cache, rest);
      assert first == Run([a1.ok] + rest1.results, rest1.cache, a1.requests + rest1.requests);
      if Target(t) !in first.cache {
        MissingTargetsUnfetchable(web, cache, tasks, 0);
      }
      RerunStep(web, cache, t, first.cache);
      var a2 := DownloadAsset(web, first.cache, t);
      RerunRequestsShrink(web, a1.cache, rest);
      var rest2 := RunTasks(web, first.cache, rest);
      assert RunTasks(web, first.cache, tasks).requests == a2.requests + rest2.requests;
    }
  }


  // ---------------------------------------------------------------------
  // Counting results

  /** `sum(1 for r in results if r is True)`. */
  function CountTrue(bs: seq<bool>): (n: nat)
    ensures n <= |bs|
    ensures n == |bs| <==> forall i :: 0 <= i < |bs| ==> bs[i]
    ensures n == multiset(bs)[true]
  {
    if bs == [] then 0
    else
      var n := CountTrue(bs[..|bs| - 1]) + (if bs[|bs| - 1] then 1 else 0);
      assert forall i :: 0 <= i < |bs| - 1 ==> bs[..|bs| - 1][i] == bs[i];
      assert bs == bs[..|bs| - 1] + [bs[|bs| - 1]];
      n
  }

  /** More successes, task by task, never make a smaller count. */
  lemma {:induction false} CountTrueMonotone(a: seq<bool>, b: seq<bool>)
    requires |a| == |b|
    requires forall i :: 0 <= i < |a| ==> a[i] ==> b[i]
    ensures CountTrue(a) <= CountTrue(b)
  {
    if a != [] {
      CountTrueMonotone(a[..|a| - 1], b[..|b| - 1]);
    }
  }

  // ---------------------------------------------------------------------
  // Phase 1

  function MetadataUrl(name: string): string {
    MasterdataBaseUrl + name + ".json"
  }

  function MetadataDir(root: string): string {
    Join(Join(root, "metadata"), TargetRegion)
  }

  /** Where table `name` is stored under `dir`. */
  function TableFile(dir: string, name: string): string {
    Join(dir, name + ".json")
  }

  /**
   Phase 1: one request per table, in list order, whether or not the table
   is already on disk; the disk only grows.
   */
  function FetchTables(web: Web, cache: set<string>, dir: string, names: seq<string>): (r: Run)
    ensures |r.results| == |names| && |r.requests| == |names|
    ensures names != [] ==> r.requests[0] == MetadataUrl(names[0])
    ensures cache <= r.cache
    ensures forall x :: x in r.cache ==>
      x in cache || exists i :: 0 <= i < |names| && x == TableFile(dir, names[i]) && Opens(web, MetadataUrl(names[i]))
    decreases |names|
  {
    if names == [] then Run([], cache, [])
    else
      var f := DownloadFile(web, MetadataUrl(names[0]), TableFile(dir, names[0]), cache);
      var rest := FetchTables(web, f.cache, dir, names[1..]);
      assert forall i :: 1 <= i < |names| ==> names[1..][i - 1] == names[i];
      Run([f.ok] + rest.results, rest.cache, [MetadataUrl(names[0])] + rest.requests)
  }

  /**
   Table `i` is requested at position `i`, succeeds exactly when its URL
   answers 200 with a whole body, and is on disk afterwards whenever its URL
   answered 200, even when the body then broke off.
   */
  lemma {:induction false} FetchTablesOutcome(web: Web, cache: set<string>, dir: string, names: seq<string>, i: nat)
    requires i < |names|
    ensures var r := FetchTables(web, cache, dir, names);
      && r.requests[i] == MetadataUrl(names[i])
      && (r.results[i] <==> Serves(web, MetadataUrl(names[i])))
      && (Opens(web, MetadataUrl(names[i])) ==> TableFile(dir, names[i]) in r.cache)
    decreases |names|
  {
    var f := DownloadFile(web, MetadataUrl(names[0]), TableFile(dir, names[0]), cache);
    if i > 0 {
      assert names[1..][i - 1] == names[i];
      FetchTablesOutcome(web, f.cache, dir, names[1..], i - 1);
    }
  }

  /** Phase 1 leaves a disk that already holds every table whose URL answers 200 unchanged. */
  lemma {:induction false} FetchTablesStable(web: Web, cache: set<string>, dir: string, names: seq<string>)
    requires forall i :: 0 <= i < |names| && Opens(web, MetadataUrl(names[i])) ==> TableFile(dir, names[i]) in cache
    ensures FetchTables(web, cache, dir, names).cache == cache
    decreases |names|
  {
    if names != [] {
      var f := DownloadFile(web, MetadataUrl(names[0]), TableFile(dir, names[0]), cache);
      assert f.cache == cache;
      forall i | 0 <= i < |names| - 1 && Opens(web, MetadataUrl(names[1..][i]))
        ensures TableFile(dir, names[1..][i]) in cache
      {
        assert names[1..][i] == names[i + 1];
      }
      FetchTablesStable(web, cache, dir, names[1..]);
    }
  }

  // ---------------------------------------------------------------------
  // The whole update

  function AssetDir(root: string): string {
    Join(Join(root, "assets"), TargetRegion)
  }

  function StaticDir(root: string): string {
    Join(root, "static_images")
  }

  /** One task per path, all stored under `dir`. */
  function TasksFor(paths: seq<string>, dir: string): (ts: seq<Task>)
    ensures |ts| == |paths|
    ensures forall i :: 0 <= i < |paths| ==> ts[i] == Task(paths[i], dir)
  {
    if paths == [] then [] else [Task(paths[0], dir)] + TasksFor(paths[1..], dir)
  }

  /** The task list of phase 3: the asset paths, then the static paths with `STATIC_FILES`. */
  function Phase3Tasks(root: string, assetOrder: seq<string>, staticOrder: seq<string>): (ts: seq<Task>)
    ensures |ts| == |assetOrder| + |staticOrder|
    ensures forall i :: 0 <= i < |assetOrder| ==> ts[i] == Task(assetOrder[i], AssetDir(root))
    ensures forall j :: 0 <= j < |staticOrder| ==> ts[|assetOrder| + j] == Task(staticOrder[j], StaticDir(root))
  {
    TasksFor(assetOrder, AssetDir(root)) + TasksFor(staticOrder, StaticDir(root))
  }

  /** Every table whose URL answers 200 is on disk after phase 1, whether or not its body arrived whole. */
  lemma FetchTablesCovers(web: Web, cache: set<string>, dir: string, names: seq<string>)
    ensures forall i :: 0 <= i < |names| && Opens(web, MetadataUrl(names[i])) ==>
      TableFile(dir, names[i]) in FetchTables(web, cache, dir, names).cache
  {
    forall i | 0 <= i < |names| && Opens(web, MetadataUrl(names[i]))
      ensures TableFile(dir, names[i]) in FetchTables(web, cache, dir, names).cache
    {
      FetchTablesOutcome(web, cache, dir, names, i);
    }
  }

  /** The two fetching phases: the tables `names` into `dir`, then every task of phase 3. */
  datatype Downloads = Downloads(tables: Run, assets: Run)

  function Download(dir: string, names: seq<string>, web: Web, cache: set<string>, tasks: seq<Task>): Downloads {
    var tables := FetchTables(web, cache, dir, names);
    Downloads(tables, RunTasks(web, tables.cache, tasks))
  }

  /**
   Downloading again over the disk the first pass left, with the same answers
   from the network, changes nothing on disk and succeeds wherever the first
   pass did. Phase 1 requests every table again; phase 3 asks the mirrors
   only for URLs the first pass asked for, only for tasks whose destination
   the first pass did not leave on disk, and for none when the first pass
   succeeded everywhere.
   */
  lemma DownloadTwice(dir: string, names: seq<string>, web: Web, cache: set<string>, tasks: seq<Task>)
    ensures var first := Download(dir, names, web, cache, tasks);
      var second := Download(dir, names, web, first.assets.cache, tasks);
      && second.assets.cache == first.assets.cache
      && CountTrue(first.assets.results) <= CountTrue(second.assets.results)
      && |second.assets.requests| <= |first.assets.requests|
      && (forall u :: u in second.assets.requests ==> u in first.assets.requests)
      && (CountTrue(first.assets.results) == |tasks| ==> second.assets.requests == [])
      && (forall u :: u in second.assets.requests ==>
            exists i :: 0 <= i < |tasks| && Target(tasks[i]) !in first.assets.cache && MirrorUrl(u, tasks[i]))
  {
    var first := Download(dir, names, web, cache, tasks);
    FetchTablesCovers(web, cache, dir, names);
    FetchTablesStable(web, first.assets.cache, dir, names);
    RerunFetchesNothingNew(web, first.tables.cache, tasks);
    var second := Download(dir, names, web, first.assets.cache, tasks);
    assert second.tables.cache == first.assets.cache;
    CountTrueMonotone(first.assets.results, second.assets.results);
    if CountTrue(first.assets.results) == |tasks| {
      PresentTargetsFetchNothing(web, first.assets.cache, tasks);
    }
  }

  /** The figures the update reports, the disk it leaves, and the phase 3 requests. */
  datatype Report = Report(
    tablesFetched: nat,
    totalAssets: nat,
    totalStatics: nat,
    taskCount: nat,
    downloaded: nat,
    cache: set<string>,
    assetRequests: seq<string>)

  /**
   The two fetching phases of `update_resources` once the order of the asset
   and static paths is fixed: the totals are the lengths of the two orders,
   the task count their sum, and the downloads are those of the tasks.
   */
  function Reported(
    root: string, names: seq<string>, web: Web, cache: set<string>,
    assetOrder: seq<string>, staticOrder: seq<string>): (rep: Report)
    ensures var d := Download(MetadataDir(root), names, web, cache, Phase3Tasks(root, assetOrder, staticOrder));
      && rep.totalAssets == |assetOrder| && rep.totalStatics == |staticOrder|
      && rep.taskCount == |assetOrder| + |staticOrder|
      && rep.tablesFetched == CountTrue(d.tables.results) <= |names|
      && rep.downloaded == CountTrue(d.assets.results) <= rep.taskCount
      && rep.cache == d.assets.cache && cache <= rep.cache
      && rep.assetRequests == d.assets.requests
  {
    var tasks := Phase3Tasks(root, assetOrder, staticOrder);
    var d := Download(MetadataDir(root), names, web, cache, tasks);
    Report(
      CountTrue(d.tables.results), |assetOrder|, |staticOrder|,
      |tasks|, CountTrue(d.assets.results), d.assets.cache, d.assets.requests)
  }

  /**
   `update_resources` with the tables as phase 2 reads them back (`md`) and
   the order in which the two path sets are iterated. The task count is the
   sum of the two totals it announces, and the reported successes never
   exceed it; `UpdateDownloads` gives the exact figures.
   */
  function Update(
    root: string, names: seq<string>, web: Web, cache: set<string>, md: Metadata,
    assetOrder: seq<string>, staticOrder: seq<string>): (rep: Report)
    requires Enumerates(assetOrder, AssetPathsOf(md))
    requires Enumerates(staticOrder, StaticPathsOf(md) + StaticFiles)
    ensures rep.tablesFetched <= |names|
    ensures rep.taskCount == rep.totalAssets + rep.totalStatics
    ensures rep.downloaded <= rep.taskCount
    ensures cache <= rep.cache
  {
    Reported(root, names, web, cache, assetOrder, staticOrder)
  }

  /**
   The figures the update reports are exact: `len(asset_paths)`, at least
   87, the size of the static paths with `STATIC_FILES`, at least 5, the
   number of True results of each fetching phase, and one task per path; the
   disk and the requests are those of its two fetching phases.
   */
  lemma UpdateDownloads(
    root: string, names: seq<string>, web: Web, cache: set<string>, md: Metadata,
    assetOrder: seq<string>, staticOrder: seq<string>)
    requires Enumerates(assetOrder, AssetPathsOf(md))
    requires Enumerates(staticOrder, StaticPathsOf(md) + StaticFiles)
    ensures var rep := Update(root, names, web, cache, md, assetOrder, staticOrder);
      var tasks := Phase3Tasks(root, assetOrder, staticOrder);
      var d := Download(MetadataDir(root), names, web, cache, tasks);
      && rep.totalAssets == |AssetPathsOf(md)| && 87 <= rep.totalAssets
      && rep.totalStatics == |StaticPathsOf(md) + StaticFiles| && 5 <= rep.totalStatics
      && rep.tablesFetched == CountTrue(d.tables.results)
      && rep.downloaded == CountTrue(d.assets.results)
      && rep.taskCount == |tasks|
      && rep.cache == d.assets.cache
      && rep.assetRequests == d.assets.requests
  {
    PathCountsLowerBound(md);
    EnumerationSize(assetOrder, AssetPathsOf(md));
    EnumerationSize(staticOrder, StaticPathsOf(md) + StaticFiles);
  }

  /**
   Calling the update again over the disk the first call left, with the same
   answers from the network, changes nothing on disk, reports at least as
   many successes. The tables are requested again; the asset mirrors are
   asked only for URLs the first call asked for, only for paths whose
   destination the first call did not leave on disk, and for none at all
   when the first call downloaded everything.
   */
  lemma UpdateTwice(
    root: string, names: seq<string>, web: Web, cache: set<string>, md: Metadata,
    assetOrder: seq<string>, staticOrder: seq<string>)
    requires Enumerates(assetOrder, AssetPathsOf(md))
    requires Enumerates(staticOrder, StaticPathsOf(md) + StaticFiles)
    ensures var first := Update(root, names, web, cache, md, assetOrder, staticOrder);
      var second := Update(root, names, web, first.cache, md, assetOrder, staticOrder);
      && second.cache == first.cache
      && first.downloaded <= second.downloaded
      && |second.assetRequests| <= |first.assetRequests|
      && (forall u :: u in second.assetRequests ==> u in first.assetRequests)
      && (first.downloaded == first.taskCount ==> second.assetRequests == [])
      && var tasks := Phase3Tasks(root, assetOrder, staticOrder);
         forall u :: u in second.assetRequests ==>
           exists i :: 0 <= i < |tasks| && Target(tasks[i]) !in first.cache && MirrorUrl(u, tasks[i])
  {
    ReportedTwice(root, names, web, cache, assetOrder, staticOrder);
  }

  /** `UpdateTwice` for fixed orders of the paths. */
  lemma ReportedTwice(
    root: string, names: seq<string>, web: Web, cache: set<string>,
    assetOrder: seq<string>, staticOrder: seq<string>)
    ensures var first := Reported(root, names, web, cache, assetOrder, staticOrder);
      var second := Reported(root, names, web, first.cache, assetOrder, staticOrder);
      && second.cache == first.cache
      && first.downloaded <= second.downloaded
      && |second.assetRequests| <= |first.assetRequests|
      && (forall u :: u in second.assetRequests ==> u in first.assetRequests)
      && (first.downloaded == first.taskCount ==> second.assetRequests == [])
      && var tasks := Phase3Tasks(root, assetOrder, staticOrder);
         forall u :: u in second.assetRequests ==>
           exists i :: 0 <= i < |tasks| && Target(tasks[i]) !in first.cache && MirrorUrl(u, tasks[i])
  {
    DownloadTwice(MetadataDir(root), names, web, cache, Phase3Tasks(root, assetOrder, staticOrder));
  }
}

=== FILE: asset_paths.dfy ===
/**
 Phase 2 of the resource update: the relative paths of every asset the
 metadata tables refer to, plus the hard-coded paths that are always fetched.
 Asset paths are later stored under the region's asset directory, static
 paths under the static image directory.
 */
module AssetPaths {
  import opened Wrappers
  import Decimal
  import Text
  import opened PathSets

  datatype HarvestFixture = HarvestFixture(rarityType: string, assetbundleName: string)
  datatype Phenomenon = Phenomenon(id: int, iconAssetbundleName: string)
  datatype Material = Material(iconAssetbundleName: string)
  datatype Item = Item(iconAssetbundleName: string)
  datatype Fixture = Fixture(assetbundleName: string)
  datatype Music = Music(id: int, assetbundleName: string)
  datatype MusicRecord = MusicRecord(externalId: Option<int>)

  /**
   The tables the derivation reads, as `load_json_table` finds them on disk:
   `None` when the file is missing or is not valid JSON.
   */
  datatype Metadata = Metadata(
    harvestFixtures: Option<seq<HarvestFixture>>,
    phenomena: Option<seq<Phenomenon>>,
    materials: Option<seq<Material>>,
    items: Option<seq<Item>>,
    fixtures: Option<seq<Fixture>>,
    musics: Option<seq<Music>>,
    musicRecords: Option<seq<MusicRecord>>)

  const NoMetadata := Metadata(None, None, None, None, None, None, None)

  /** The nine tables phase 1 downloads (two of them are not read by the derivation). */
  const MetadataFiles: seq<string> := [
    "mysekaiMaterials", "mysekaiPhenomenas", "mysekaiSiteHarvestFixtures",
    "gameCharacterUnits", "mysekaiGameCharacterUnitGroups", "mysekaiMusicRecords",
    "musics", "mysekaiItems", "mysekaiFixtures"]

  /** `load_json_table`: a table that cannot be read is an empty list. */
  function Table<R>(t: Option<seq<R>>): (rows: seq<R>)
    ensures t.None? ==> rows == []
    ensures t.Some? ==> rows == t.value
  {
    t.GetOr([])
  }

  function HarvestIcon(f: HarvestFixture): string {
    "mysekai/harvest_fixture_icon/" + f.rarityType + "/" + f.assetbundleName + ".png"
  }

  function PhenomenonThumbnail(p: Phenomenon): string {
    "mysekai/thumbnail/phenomena/" + p.iconAssetbundleName + ".png"
  }

  function PhenomenonBackground(p: Phenomenon): string {
    "mysekai/phenom_bg/" + Decimal.IntToString(p.id) + ".png"
  }

  function MaterialThumbnail(m: Material): string {
    "mysekai/thumbnail/material/" + m.iconAssetbundleName + ".png"
  }

  function ItemThumbnail(i: Item): string {
    "mysekai/thumbnail/item/" + i.iconAssetbundleName + ".png"
  }

  const FixtureThumbnailDir: string := "mysekai/thumbnail/fixture/"

  /** The six numbered thumbnails of a fixture, `<name>_1.png` to `<name>_6.png`. */
  function FixtureThumbnails(f: Fixture): set<string> {
    Family(FixtureThumbnailDir + f.assetbundleName + "_", ".png", 1, 7)
  }

  /** `{m['id']: m['assetbundleName'] for m in musics}`. */
  function MusicBundles(ms: seq<Music>): map<int, string> {
    if ms == [] then map[]
    else MusicBundles(ms[..|ms| - 1])[ms[|ms| - 1].id := ms[|ms| - 1].assetbundleName]
  }

  /** Every music id of the table, and nothing else, is a key of the map. */
  lemma {:induction false} MusicBundlesKeys(ms: seq<Music>, k: int)
    ensures k in MusicBundles(ms) <==> exists i :: 0 <= i < |ms| && ms[i].id == k
  {
    if ms != [] {
      var init := ms[..|ms| - 1];
      MusicBundlesKeys(init, k);
      if exists i :: 0 <= i < |init| && init[i].id == k {
        var i :| 0 <= i < |init| && init[i].id == k;
        assert ms[i] == init[i];
      }
      if exists i :: 0 <= i < |ms| && ms[i].id == k {
        var i :| 0 <= i < |ms| && ms[i].id == k;
        if i < |ms| - 1 {
          assert init[i] == ms[i];
        }
      }
    }
  }

  /** When a music id repeats, the record that comes last decides its bundle name. */
  lemma {:induction false} MusicBundlesLastWins(ms: seq<Music>, i: nat)
    requires i < |ms|
    requires forall j :: i < j < |ms| ==> ms[j].id != ms[i].id
    ensures ms[i].id in MusicBundles(ms)
    ensures MusicBundles(ms)[ms[i].id] == ms[i].assetbundleName
  {
    if i < |ms| - 1 {
      var init := ms[..|ms| - 1];
      assert init[i] == ms[i];
      forall j | i < j < |init|
        ensures init[j].id != init[i].id
      {
        assert init[j] == ms[j];
      }
      MusicBundlesLastWins(init, i);
    }
  }

  function Jacket(bundle: string): string {
    "music/jacket/" + bundle + "/" + bundle + ".png"
  }

  /** A music record names a jacket only when its `externalId` is a known music id. */
  function JacketOf(bundles: map<int, string>, r: MusicRecord): set<string> {
    match r.externalId
    case Some(k) => if k in bundles then {Jacket(bundles[k])} else {}
    case None => {}
  }

  const SitemapTextures: set<string> := Family("mysekai/site/sitemap/texture/", ".png", 5, 9)

  const FixedMaterials: set<string> := {
    Member("thumbnail/material/", ".png", 17),
    Member("thumbnail/material/", ".png", 170),
    Member("thumbnail/material/", ".png", 173)}

  const SpritePrefix: string := "character/character_sd_l/chr_sp_"

  const CharacterSprites: set<string> := Family(SpritePrefix, ".png", 1, 41) + Family(SpritePrefix, ".png", 701, 741)

  /** The asset paths added whatever the metadata says. */
  const FixedAssets: set<string> := SitemapTextures + FixedMaterials + CharacterSprites

  /** `STATIC_FILES`: the five gate icons. */
  const StaticFiles: set<string> := Family("mysekai/gate_icon/gate_", ".png", 1, 6)

  /** The jackets the music-record loop adds. */
  function Jackets(bundles: map<int, string>, rs: seq<MusicRecord>): set<string> {
    if rs == [] then {} else Jackets(bundles, rs[..|rs| - 1]) + JacketOf(bundles, rs[|rs| - 1])
  }

  function PhenomenonThumbnails(p: Phenomenon): set<string> { {PhenomenonThumbnail(p)} }
  function PhenomenonBackgrounds(p: Phenomenon): set<string> { {PhenomenonBackground(p)} }
  function MaterialThumbnails(m: Material): set<string> { {MaterialThumbnail(m)} }
  function ItemThumbnails(i: Item): set<string> { {ItemThumbnail(i)} }
  function HarvestIcons(f: HarvestFixture): set<string> { {HarvestIcon(f)} }

  /** The asset paths the per-kind loops of phase 2 add. */
  function TableAssets(md: Metadata): set<string> {
    UnionOver(Table(md.phenomena), PhenomenonThumbnails)
    + UnionOver(Table(md.materials), MaterialThumbnails)
    + UnionOver(Table(md.items), ItemThumbnails)
    + UnionOver(Table(md.fixtures), FixtureThumbnails)
    + Jackets(MusicBundles(Table(md.musics)), Table(md.musicRecords))
  }

  /** The asset paths of phase 2 (`asset_paths`). */
  function AssetPathsOf(md: Metadata): set<string> {
    TableAssets(md) + FixedAssets
  }

  /** The static paths of phase 2 (`static_paths`, before `STATIC_FILES` is added). */
  function StaticPathsOf(md: Metadata): set<string> {
    UnionOver(Table(md.harvestFixtures), HarvestIcons)
    + UnionOver(Table(md.phenomena), PhenomenonBackgrounds)
  }

  // ---------------------------------------------------------------------
  // Sizes of the fixed path sets

  lemma DisjointUnionSize(a: set<string>, b: set<string>)
    requires a !! b
    ensures |a + b| == |a| + |b|
  {
    assert a * b == {};
  }

  lemma SubsetSize(a: set<string>, b: set<string>)
    requires a <= b
    ensures |a| <= |b|
  {
    assert b == a + (b - a);
    DisjointUnionSize(a, b - a);
  }

  /** Each fixed family begins with its own letters: `my`, `t` or `c`. */
  lemma FixedAssetLeads(x: string)
    ensures x in SitemapTextures ==> |x| >= 2 && x[0] == 'm' && x[1] == 'y'
    ensures x in FixedMaterials ==> |x| >= 1 && x[0] == 't'
    ensures x in CharacterSprites ==> |x| >= 1 && x[0] == 'c'
  {
    if x in SitemapTextures {
      FamilyPrefix("mysekai/site/sitemap/texture/", ".png", 5, 9, x);
    }
    if x in FixedMaterials {
      assert Text.StartsWith(x, "thumbnail/material/");
    }
    if x in Family(SpritePrefix, ".png", 1, 41) {
      FamilyPrefix(SpritePrefix, ".png", 1, 41, x);
    }
    if x in Family(SpritePrefix, ".png", 701, 741) {
      FamilyPrefix(SpritePrefix, ".png", 701, 741, x);
    }
  }

  /** Eighty distinct character sprites: ids 1 to 40 and 701 to 740. */
  lemma CharacterSpritesCount()
    ensures |CharacterSprites| == 80
  {
    var low, high := Family(SpritePrefix, ".png", 1, 41), Family(SpritePrefix, ".png", 701, 741);
    FamilySize(SpritePrefix, ".png", 1, 41);
    FamilySize(SpritePrefix, ".png", 701, 741);
    forall x | x in low
      ensures x !in high
    {
      FamilyMembers(SpritePrefix, ".png", 1, 41, x);
      FamilyMembers(SpritePrefix, ".png", 701, 741, x);
      var i :| 1 <= i < 41 && x == Member(SpritePrefix, ".png", i);
      if x in high {
        var j :| 701 <= j < 741 && x == Member(SpritePrefix, ".png", j);
        MemberInjective(SpritePrefix, ".png", i, j);
      }
    }
    DisjointUnionSize(low, high);
  }

  /** The hard-coded asset paths are 4 sitemap textures, 3 material thumbnails and 80 sprites. */
  lemma FixedAssetsCount()
    ensures |FixedAssets| == 87
  {
    FamilySize("mysekai/site/sitemap/texture/", ".png", 5, 9);
    FixedMaterialsCount();
    CharacterSpritesCount();
    FixedFamiliesDisjoint();
    DisjointUnionSize(FixedMaterials, CharacterSprites);
    DisjointUnionSize(SitemapTextures, FixedMaterials + CharacterSprites);
    assert FixedAssets == SitemapTextures + (FixedMaterials + CharacterSprites);
  }

  lemma FixedMaterialsCount()
    ensures |FixedMaterials| == 3
  {
    var p := "thumbnail/material/";
    if Member(p, ".png", 17) == Member(p, ".png", 170) { MemberInjective(p, ".png", 17, 170); }
    if Member(p, ".png", 17) == Member(p, ".png", 173) { MemberInjective(p, ".png", 17, 173); }
    if Member(p, ".png", 170) == Member(p, ".png", 173) { MemberInjective(p, ".png", 170, 173); }
  }

  /** The three fixed families share no path, since they begin differently. */
  lemma FixedFamiliesDisjoint()
    ensures SitemapTextures !! FixedMaterials + CharacterSprites
    ensures FixedMaterials !! CharacterSprites
  {
    forall x | x in SitemapTextures + FixedMaterials + CharacterSprites
      ensures x in SitemapTextures ==> x !in FixedMaterials + CharacterSprites
      ensures x in FixedMaterials ==> x !in CharacterSprites
    {
      FixedAssetLeads(x);
    }
  }

  /** `STATIC_FILES` holds five gate icons. */
  lemma StaticFilesCount()
    ensures |StaticFiles| == 5
  {
    FamilySize("mysekai/gate_icon/gate_", ".png", 1, 6);
  }

  // ---------------------------------------------------------------------
  // What phase 2 derives, stated record by record

  /** Record `r` carries a known `externalId` whose music has bundle `b`. */
  predicate NamesJacket(bundles: map<int, string>, r: MusicRecord, b: string) {
    r.externalId.Some? && r.externalId.value in bundles && bundles[r.externalId.value] == b
  }

  lemma JacketInjective(a: string, b: string)
    requires Jacket(a) == Jacket(b)
    ensures a == b
  {
    var x := Jacket(a);
    assert |a| == |b|;
    assert x[13..13 + |a|] == a;
    assert x[13..13 + |b|] == b;
  }

  /** A jacket is added exactly when some music record names its bundle. */
  lemma {:induction false} JacketsMembers(bundles: map<int, string>, rs: seq<MusicRecord>, b: string)
    ensures Jacket(b) in Jackets(bundles, rs) <==> exists i :: 0 <= i < |rs| && NamesJacket(bundles, rs[i], b)
  {
    if rs != [] {
      var init, last := rs[..|rs| - 1], rs[|rs| - 1];
      JacketsMembers(bundles, init, b);
      if Jacket(b) in JacketOf(bundles, last) {
        JacketInjective(bundles[last.externalId.value], b);
      }
      if exists i :: 0 <= i < |init| && NamesJacket(bundles, init[i], b) {
        var i :| 0 <= i < |init| && NamesJacket(bundles, init[i], b);
        assert rs[i] == init[i];
      }
      if exists i :: 0 <= i < |rs| && NamesJacket(bundles, rs[i], b) {
        var i :| 0 <= i < |rs| && NamesJacket(bundles, rs[i], b);
        if i < |rs| - 1 {
          assert init[i] == rs[i];
        }
      }
    }
  }

  /** A phenomenon record produces `x` as its thumbnail. */
  ghost predicate FromPhenomena(md: Metadata, x: string) {
    var ph := Table(md.phenomena);
    exists i :: 0 <= i < |ph| && x == PhenomenonThumbnail(ph[i])
  }

  ghost predicate FromMaterials(md: Metadata, x: string) {
    var ma := Table(md.materials);
    exists i :: 0 <= i < |ma| && x == MaterialThumbnail(ma[i])
  }

  ghost predicate FromItems(md: Metadata, x: string) {
    var it := Table(md.items);
    exists i :: 0 <= i < |it| && x == ItemThumbnail(it[i])
  }

  ghost predicate FromFixtures(md: Metadata, x: string) {
    var fx := Table(md.fixtures);
    exists i :: 0 <= i < |fx| && x in FixtureThumbnails(fx[i])
  }

  /** Some music record's `externalId` is known and `x` is the jacket of its bundle. */
  ghost predicate FromMusicRecords(md: Metadata, x: string) {
    var rs := Table(md.musicRecords);
    exists i :: 0 <= i < |rs| && exists b :: x == Jacket(b) && NamesJacket(MusicBundles(Table(md.musics)), rs[i], b)
  }

  /** A path is derived from the metadata exactly when one of these rules produces it. */
  ghost predicate DerivedAsset(md: Metadata, x: string) {
    || FromPhenomena(md, x)
    || FromMaterials(md, x)
    || FromItems(md, x)
    || FromFixtures(md, x)
    || FromMusicRecords(md, x)
    || x in FixedAssets
  }

  ghost predicate DerivedStatic(md: Metadata, x: string) {
    var hf, ph := Table(md.harvestFixtures), Table(md.phenomena);
    || (exists i :: 0 <= i < |hf| && x == HarvestIcon(hf[i]))
    || (exists i :: 0 <= i < |ph| && x == PhenomenonBackground(ph[i]))
  }

  lemma {:induction false} JacketsAreJackets(bundles: map<int, string>, rs: seq<MusicRecord>, x: string)
    requires x in Jackets(bundles, rs)
    ensures exists b :: x == Jacket(b)
  {
    var init, last := rs[..|rs| - 1], rs[|rs| - 1];
    if x in Jackets(bundles, init) {
      JacketsAreJackets(bundles, init, x);
    } else {
      assert x == Jacket(bundles[last.externalId.value]);
    }
  }

  lemma PhenomenaDeclarative(md: Metadata, x: string)
    ensures x in UnionOver(Table(md.phenomena), PhenomenonThumbnails) <==> FromPhenomena(md, x)
  {
    UnionOverMembers(Table(md.phenomena), PhenomenonThumbnails, x);
  }

  lemma MaterialsDeclarative(md: Metadata, x: string)
    ensures x in UnionOver(Table(md.materials), MaterialThumbnails) <==> FromMaterials(md, x)
  {
    UnionOverMembers(Table(md.materials), MaterialThumbnails, x);
  }

  lemma ItemsDeclarative(md: Metadata, x: string)
    ensures x in UnionOver(Table(md.items), ItemThumbnails) <==> FromItems(md, x)
  {
    UnionOverMembers(Table(md.items), ItemThumbnails, x);
  }

  lemma FixturesDeclarative(md: Metadata, x: string)
    ensures x in UnionOver(Table(md.fixtures), FixtureThumbnails) <==> FromFixtures(md, x)
  {
    UnionOverMembers(Table(md.fixtures), FixtureThumbnails, x);
  }

  lemma MusicRecordsDeclarative(md: Metadata, x: string)
    ensures x in Jackets(MusicBundles(Table(md.musics)), Table(md.musicRecords)) <==> FromMusicRecords(md, x)
  {
    var rs := Table(md.musicRecords);
    var bundles := MusicBundles(Table(md.musics));
    if x in Jackets(bundles, rs) {
      JacketsAreJackets(bundles, rs, x);
      var b :| x == Jacket(b);
      JacketsMembers(bundles, rs, b);
    }
    if FromMusicRecords(md, x) {
      var i :| 0 <= i < |rs| && exists b :: x == Jacket(b) && NamesJacket(bundles, rs[i], b);
      var b :| x == Jacket(b) && NamesJacket(bundles, rs[i], b);
      JacketsMembers(bundles, rs, b);
    }
  }

  /** The asset paths are exactly the paths the per-kind rules and the fixed list name. */
  lemma AssetPathsDeclarative(md: Metadata, x: string)
    ensures x in AssetPathsOf(md) <==> DerivedAsset(md, x)
  {
    PhenomenaDeclarative(md, x);
    MaterialsDeclarative(md, x);
    ItemsDeclarative(md, x);
    FixturesDeclarative(md, x);
    MusicRecordsDeclarative(md, x);
  }

  lemma StaticPathsDeclarative(md: Metadata, x: string)
    ensures x in StaticPathsOf(md) <==> DerivedStatic(md, x)
  {
    UnionOverMembers(Table(md.harvestFixtures), HarvestIcons, x);
    UnionOverMembers(Table(md.phenomena), PhenomenonBackgrounds, x);
  }

  /** A fixture's thumbnails are exactly `<name>_1.png` to `<name>_6.png`: six distinct paths. */
  lemma FixtureThumbnailsShape(f: Fixture)
    ensures |FixtureThumbnails(f)| == 6
    ensures forall x :: x in FixtureThumbnails(f) <==>
      exists i :: 1 <= i <= 6 && x == Member(FixtureThumbnailDir + f.assetbundleName + "_", ".png", i)
  {
    FamilySize(FixtureThumbnailDir + f.assetbundleName + "_", ".png", 1, 7);
  }

  /** Every thumbnail of every fixture record is among the asset paths. */
  lemma FixtureContribution(md: Metadata, f: Fixture)
    requires f in Table(md.fixtures)
    ensures FixtureThumbnails(f) <= AssetPathsOf(md)
  {
    var fx := Table(md.fixtures);
    var k :| 0 <= k < |fx| && fx[k] == f;
    forall x | x in FixtureThumbnails(f)
      ensures x in UnionOver(fx, FixtureThumbnails)
    {
      UnionOverMembers(fx, FixtureThumbnails, x);
    }
  }

  /** Each phenomenon adds one thumbnail to the asset paths and one background to the static paths. */
  lemma PhenomenonContribution(md: Metadata, p: Phenomenon)
    requires p in Table(md.phenomena)
    ensures PhenomenonThumbnail(p) in AssetPathsOf(md)
    ensures PhenomenonBackground(p) in StaticPathsOf(md)
  {
    var ph := Table(md.phenomena);
    var k :| 0 <= k < |ph| && ph[k] == p;
    UnionOverMembers(ph, PhenomenonThumbnails, PhenomenonThumbnail(p));
    UnionOverMembers(ph, PhenomenonBackgrounds, PhenomenonBackground(p));
  }

  lemma FixtureThumbnailLeads(f: Fixture, x: string)
    ensures x in FixtureThumbnails(f) ==> |x| >= 2 && x[0] == 'm' && x[1] == 'y'
  {
    var prefix := FixtureThumbnailDir + f.assetbundleName + "_";
    if x in FixtureThumbnails(f) {
      FamilyPrefix(prefix, ".png", 1, 7, x);
      assert x[0] == x[..|prefix|][0] && x[1] == x[..|prefix|][1];
    }
  }

  /**
   A jacket is among the asset paths exactly when some music record's
   `externalId` is a key of the music map and maps to the jacket's bundle;
   a record whose id is unknown adds nothing.
   */
  lemma JacketMembership(md: Metadata, b: string)
    ensures Jacket(b) in AssetPathsOf(md) <==>
      exists i :: 0 <= i < |Table(md.musicRecords)| && NamesJacket(MusicBundles(Table(md.musics)), Table(md.musicRecords)[i], b)
  {
    var x := Jacket(b);
    assert x[0] == 'm' && x[1] == 'u';
    var ph, ma, it, fx := Table(md.phenomena), Table(md.materials), Table(md.items), Table(md.fixtures);
    forall i | 0 <= i < |ph|
      ensures x !in PhenomenonThumbnails(ph[i])
    {
      assert PhenomenonThumbnail(ph[i])[1] == 'y';
    }
    forall i | 0 <= i < |ma|
      ensures x !in MaterialThumbnails(ma[i])
    {
      assert MaterialThumbnail(ma[i])[1] == 'y';
    }
    forall i | 0 <= i < |it|
      ensures x !in ItemThumbnails(it[i])
    {
      assert ItemThumbnail(it[i])[1] == 'y';
    }
    forall i | 0 <= i < |fx|
      ensures x !in FixtureThumbnails(fx[i])
    {
      FixtureThumbnailLeads(fx[i], x);
    }
    UnionOverMembers(ph, PhenomenonThumbnails, x);
    UnionOverMembers(ma, MaterialThumbnails, x);
    UnionOverMembers(it, ItemThumbnails, x);
    UnionOverMembers(fx, FixtureThumbnails, x);
    FixedAssetLeads(x);
    JacketsMembers(MusicBundles(Table(md.musics)), Table(md.musicRecords), b);
  }

  /** Missing tables yield only the fixed paths: 87 asset paths, 5 static files. */
  lemma EmptyMetadataPaths()
    ensures AssetPathsOf(NoMetadata) == FixedAssets
    ensures StaticPathsOf(NoMetadata) == {}
    ensures |AssetPathsOf(NoMetadata)| == 87
    ensures |StaticPathsOf(NoMetadata) + StaticFiles| == 5
  {
    assert TableAssets(NoMetadata) == {};
    assert AssetPathsOf(NoMetadata) == FixedAssets;
    FixedAssetsCount();
    StaticFilesCount();
  }

  /** `total_assets >= 87` and `total_statics >= 5`, whatever the tables hold. */
  lemma PathCountsLowerBound(md: Metadata)
    ensures FixedAssets <= AssetPathsOf(md)
    ensures 87 <= |AssetPathsOf(md)|
    ensures 5 <= |StaticPathsOf(md) + StaticFiles|
  {
    FixedAssetsCount();
    StaticFilesCount();
    SubsetSize(FixedAssets, AssetPathsOf(md));
    SubsetSize(StaticFiles, StaticPathsOf(md) + StaticFiles);
  }
}

=== FILE: decimal.dfy ===
/**
 Decimal rendering of integers, as Python's `str(n)` (and an f-string `{n}`)
 formats an `int`: most significant digit first, no leading zeros, a minus
 sign for negative numbers.
 */
module Decimal {

  predicate IsDigit(c: char) {
    '0' <= c <= '9'
  }

  function DigitChar(d: nat): (c: char)
    requires d < 10
    ensures IsDigit(c)
  {
    ('0' as int + d) as char
  }

  function DigitValue(c: char): nat {
    if IsDigit(c) then c as int - '0' as int else 0
  }

  /** `str(n)` for a natural number. */
  function NatToString(n: nat): (s: string)
    ensures 1 <= |s|
    ensures forall i :: 0 <= i < |s| ==> IsDigit(s[i])
    ensures s[0] == '0' ==> n == 0
    decreases n
  {
    if n < 10 then [DigitChar(n)] else NatToString(n / 10) + [DigitChar(n % 10)]
  }

  /** `int(s)` for a string of decimal digits. */
  function Parse(s: string): nat {
    if s == [] then 0 else Parse(s[..|s| - 1]) * 10 + DigitValue(s[|s| - 1])
  }

  /** Parsing the rendering gives the number back. */
  lemma {:induction false} ParseNatToString(n: nat)
    ensures Parse(NatToString(n)) == n
  {
    if n < 10 {
      assert DigitValue(DigitChar(n)) == n;
    } else {
      var s := NatToString(n);
      assert s[..|s| - 1] == NatToString(n / 10);
      assert DigitValue(DigitChar(n % 10)) == n % 10;
      ParseNatToString(n / 10);
    }
  }

  /** Distinct numbers render to distinct strings. */
  lemma NatToStringInjective(a: nat, b: nat)
    requires NatToString(a) == NatToString(b)
    ensures a == b
  {
    ParseNatToString(a);
    ParseNatToString(b);
  }

  /** `str(i)` for any integer: a minus sign exactly for a negative number, then digits. */
  function IntToString(i: int): (s: string)
    ensures 1 <= |s| && (s[0] == '-' <==> i < 0)
    ensures forall k :: 1 <= k < |s| ==> IsDigit(s[k])
  {
    if i < 0 then "-" + NatToString(-i) else NatToString(i)
  }

  /** Distinct integers render to distinct strings. */
  lemma IntToStringInjective(a: int, b: int)
    requires IntToString(a) == IntToString(b)
    ensures a == b
  {
    var s, t := IntToString(a), IntToString(b);
    if a < 0 { assert s[0] == '-'; } else { assert IsDigit(s[0]); }
    if b < 0 { assert t[0] == '-'; } else { assert IsDigit(t[0]); }
    if a < 0 {
      assert s[1..] == NatToString(-a);
      assert t[1..] == NatToString(-b);
      NatToStringInjective(-a, -b);
    } else {
      NatToStringInjective(a, b);
    }
  }
}

=== FILE: events.dfy ===
/**
 OneBot v11 events as the message rules see them: the kind of event, the
 sender's user id, and the message as a sequence of segments, each a type
 name with a `data` dictionary of JSON values.
 */
module Events {
  import opened Wrappers
  import Text

  /** A JSON value stored in a segment's `data` dictionary. */
  datatype Value = Null | Bool(b: bool) | Int(i: int) | Str(s: string)

  /** Python truthiness of a value. */
  predicate Truthy(v: Value) {
    match v
    case Null => false
    case Bool(b) => b
    case Int(i) => i != 0
    case Str(s) => s != []
  }

  datatype Segment = Segment(kind: string, data: map<string, Value>)

  /**
   The event classes the rules test for. A group message is also a message
   event; a private message is a message event only; anything else (notices,
   requests, meta events) is neither.
   */
  datatype EventKind = GroupMessage | PrivateMessage | OtherEvent

  /**
   An event with its sender's `user_id`, which message events always carry
   and meta events such as heartbeats do not.
   */
  datatype Event = Event(kind: EventKind, userId: Option<int>, message: seq<Segment>)

  /**
   `not isinstance(event, GroupMessageEvent) or not isinstance(event, MessageEvent)`
   fails exactly for group messages, since every group message event is a
   message event.
   */
  predicate IsGroupMessage(e: Event) {
    e.kind == GroupMessage
  }

  /** `seg.data.get(key)`: the stored value, or `None` when the key is absent. */
  function Get(seg: Segment, key: string): Value {
    if key in seg.data then seg.data[key] else Null
  }

  const BinSuffix: string := ".bin"

  /**
   `seg.data.get("file_name", "")` as something `.endswith` can be called on:
   the stored text, the empty text when the key is absent, and `None` when a
   non-text value is stored, on which the call raises.
   */
  function FileName(seg: Segment): (n: Option<string>)
    ensures "file_name" !in seg.data ==> n == Some([])
    ensures n.Some? <==> "file_name" !in seg.data || seg.data["file_name"].Str?
  {
    if "file_name" !in seg.data then Some([])
    else match seg.data["file_name"]
      case Str(s) => Some(s)
      case _ => None
  }

  /** `(seg.data.get("file_id") or seg.data.get("id")) or seg.data.get("url")` is truthy. */
  predicate HasHandle(seg: Segment) {
    Truthy(Get(seg, "file_id")) || Truthy(Get(seg, "id")) || Truthy(Get(seg, "url"))
  }

  /**
   The file test both rules apply to one segment: `file_name` ends in `.bin`
   and some handle is truthy; `None` when reading the name raises.
   */
  function FileCheck(seg: Segment): (c: Option<bool>)
    ensures c.None? <==> FileName(seg).None?
    ensures c == Some(true) <==> exists n :: FileName(seg) == Some(n) && Text.EndsWith(n, BinSuffix) && HasHandle(seg)
  {
    match FileName(seg)
    case None => None
    case Some(n) => Some(Text.EndsWith(n, BinSuffix) && HasHandle(seg))
  }

  /** What evaluating a rule on an event gives: true, false, or an exception. */
  datatype Verdict = Accept | Reject | Raise
}

=== FILE: handler.dfy ===
/**
 The plugin's entry point: the `is_valid_sekai_file` rule that triggers the
 handler, the handler's choice of the file segment to process, and the
 replies `process_sekai_file` sends for each way the pipeline of download,
 copy, decryption and rendering can end.
 */
module Handler {
  import opened Wrappers
  import Text
  import opened Events
  import opened Outcomes

  /** A segment that makes the rule accept: a `file` whose `.bin` name comes with a handle. */
  predicate Matches(seg: Segment) {
    seg.kind == "file" && FileCheck(seg) == Some(true)
  }

  /** A segment on which the rule raises: a `file` whose `file_name` is not text. */
  predicate Raises(seg: Segment) {
    seg.kind == "file" && FileCheck(seg).None?
  }

  /**
   The loop of `is_valid_sekai_file._check`: true at the first matching file
   segment, an exception at the first file segment whose name is not text,
   false when the segments run out.
   */
  function FileScan(message: seq<Segment>): (v: Verdict)
    ensures v == Accept ==> exists i :: 0 <= i < |message| && Matches(message[i])
    ensures v == Raise ==> exists i :: 0 <= i < |message| && Raises(message[i])
    ensures v == Reject <==> forall i :: 0 <= i < |message| ==> !Matches(message[i]) && !Raises(message[i])
    decreases |message|
  {
    if message == [] then Reject
    else
      var seg := message[0];
      if seg.kind == "file" then
        match FileCheck(seg)
        case None => Raise
        case Some(matched) => if matched then Accept else FileScan(message[1..])
      else FileScan(message[1..])
  }

  /** `is_valid_sekai_file._check`. */
  function IsValidSekaiFile(e: Event): (v: Verdict)
    ensures !IsGroupMessage(e) ==> v == Reject
    ensures IsGroupMessage(e) ==> v == FileScan(e.message)
  {
    if !IsGroupMessage(e) then Reject else FileScan(e.message)
  }

  predicate NoneRaises(message: seq<Segment>) {
    forall i :: 0 <= i < |message| ==> !Raises(message[i])
  }

  /**
   When no file segment carries a non-text name, a group message is accepted
   exactly when one of its segments is a `.bin` file with a handle.
   */
  lemma AcceptIff(e: Event)
    requires NoneRaises(e.message)
    ensures IsValidSekaiFile(e) == Accept <==>
      IsGroupMessage(e) && exists i :: 0 <= i < |e.message| && Matches(e.message[i])
  {
  }

  /** A matching segment of `m1` is a matching segment of any rearrangement `m2`. */
  lemma MatchTransfers(m1: seq<Segment>, m2: seq<Segment>, i: nat)
    requires multiset(m1) == multiset(m2)
    requires i < |m1| && Matches(m1[i])
    ensures exists j :: 0 <= j < |m2| && Matches(m2[j])
  {
    assert m1[i] in multiset(m2);
    var j :| 0 <= j < |m2| && m2[j] == m1[i];
    assert Matches(m2[j]);
  }

  /** Reordering the segments does not change the verdict while no segment raises. */
  lemma FileScanOrderIrrelevant(m1: seq<Segment>, m2: seq<Segment>)
    requires multiset(m1) == multiset(m2)
    requires NoneRaises(m1)
    ensures NoneRaises(m2)
    ensures FileScan(m1) == FileScan(m2)
  {
    forall j | 0 <= j < |m2|
      ensures !Raises(m2[j])
    {
      assert m2[j] in multiset(m1);
    }
    if i :| 0 <= i < |m1| && Matches(m1[i]) {
      MatchTransfers(m1, m2, i);
    }
    if j :| 0 <= j < |m2| && Matches(m2[j]) {
      MatchTransfers(m2, m1, j);
    }
  }

  /**
   With both kinds of file segment present, order decides: a non-text name
   met first raises, a matching file met first accepts.
   */
  lemma FileScanOrderMatters()
    ensures var bad := Segment("file", map["file_name" := Int(1)]);
      var good := Segment("file", map["file_name" := Str("mysekai.bin"), "url" := Str("u")]);
      FileScan([bad, good]) == Raise && FileScan([good, bad]) == Accept
  {
    var bad := Segment("file", map["file_name" := Int(1)]);
    var good := Segment("file", map["file_name" := Str("mysekai.bin"), "url" := Str("u")]);
    assert Text.EndsWith("mysekai.bin", BinSuffix) by {
      assert "mysekai.bin"[7..] == BinSuffix;
    }
    assert HasHandle(good) by {
      assert Get(good, "url") == Str("u");
    }
  }

  /** Segments of any type but `file` can be dropped or inserted without changing the verdict. */
  lemma {:induction false} NonFileSegmentsIrrelevant(a: seq<Segment>, s: Segment, b: seq<Segment>)
    requires s.kind != "file"
    ensures FileScan(a + [s] + b) == FileScan(a + b)
    decreases |a|
  {
    if a == [] {
      assert a + [s] + b == [s] + b && a + b == b;
      assert ([s] + b)[1..] == b;
    } else {
      assert (a + [s] + b)[0] == a[0] && (a + b)[0] == a[0];
      assert (a + [s] + b)[1..] == a[1..] + [s] + b;
      assert (a + b)[1..] == a[1..] + b;
      NonFileSegmentsIrrelevant(a[1..], s, b);
    }
  }

  /** The handler's choice of segment: an index into the message, none, or an exception. */
  datatype Selection = Selected(index: nat) | NothingSelected | SelectionRaised

  function Shift(s: Selection): Selection {
    if s.Selected? then Selected(s.index + 1) else s
  }

  /** A `file` segment whose name is text ending in `.bin`. */
  predicate BinFile(seg: Segment) {
    seg.kind == "file" && FileName(seg).Some? && Text.EndsWith(FileName(seg).value, BinSuffix)
  }

  /**
   The `next(...)` at the top of `process_sekai_file`: the first `file`
   segment whose `file_name` ends in `.bin`, whether or not it carries an id
   or a URL; reading a non-text name on the way raises.
   */
  function SelectFile(message: seq<Segment>): (s: Selection)
    ensures s.Selected? ==> s.index < |message| && BinFile(message[s.index])
    ensures s.Selected? ==> forall j :: 0 <= j < s.index ==> !BinFile(message[j]) && !Raises(message[j])
    ensures s.NothingSelected? <==> forall j :: 0 <= j < |message| ==> !BinFile(message[j]) && !Raises(message[j])
    ensures s.SelectionRaised? ==> exists j :: 0 <= j < |message| && Raises(message[j])
    decreases |message|
  {
    if message == [] then NothingSelected
    else
      var seg := message[0];
      if seg.kind == "file" then
        match FileName(seg)
        case None => SelectionRaised
        case Some(n) => if Text.EndsWith(n, BinSuffix) then Selected(0) else Shift(SelectFile(message[1..]))
      else Shift(SelectFile(message[1..]))
  }

  /** A matching segment is a `.bin` file segment. */
  lemma MatchesIsBinFile(seg: Segment)
    requires Matches(seg)
    ensures BinFile(seg)
  {
    var n :| FileName(seg) == Some(n) && Text.EndsWith(n, BinSuffix) && HasHandle(seg);
  }

  /** Whenever the rule accepted the message, the handler finds a segment to process. */
  lemma {:induction false} AcceptedImpliesSelected(message: seq<Segment>)
    requires FileScan(message) == Accept
    ensures SelectFile(message).Selected?
    decreases |message|
  {
    var seg := message[0];
    if seg.kind == "file" && FileCheck(seg) == Some(true) {
      MatchesIsBinFile(seg);
    } else {
      AcceptedImpliesSelected(message[1..]);
    }
  }

  /**
   The segment the handler picks need not be the one the rule matched: a
   `.bin` file without id or URL ahead of a matching one is picked, and with
   no URL to fetch, its download fails.
   */
  lemma SelectionMayLackUrl()
    ensures var bare := Segment("file", map["file_name" := Str("a.bin")]);
      var good := Segment("file", map["file_name" := Str("b.bin"), "url" := Str("u")]);
      && FileScan([bare, good]) == Accept
      && SelectFile([bare, good]) == Selected(0)
      && !Truthy(Get(bare, "url"))
  {
    var bare := Segment("file", map["file_name" := Str("a.bin")]);
    var good := Segment("file", map["file_name" := Str("b.bin"), "url" := Str("u")]);
    assert Text.EndsWith("a.bin", BinSuffix) by {
      assert "a.bin"[1..] == BinSuffix;
    }
    assert Text.EndsWith("b.bin", BinSuffix) by {
      assert "b.bin"[1..] == BinSuffix;
    }
    assert !HasHandle(bare);
    assert HasHandle(good) by {
      assert Get(good, "url") == Str("u");
    }
    assert [bare, good][1..] == [good];
  }

  /**
   What the handler depends on beyond the event: the answer to the download,
   whether copying to the project directory worked, whether `decrypter.py`
   exists and how its run ended, the JSON file it left, and the output images
   present after `main.py` (whose return code the handler ignores).
   */
  datatype Env = Env(
    download: HttpOutcome,
    copyOk: bool,
    decrypterExists: bool,
    decryptRun: ChildRun,
    json: FileStat,
    images: Disk)

  /** The messages the handler sends, each standing for its fixed text. */
  datatype Reply =
    | Received(fileName: string)
    | DownloadFailed
    | CopyFailed
    | DecrypterMissing
    | DecryptFailed
    | Done
    | Picture(image: string)
    | NoImages
    | Crashed

  /** How the body of the handler's `try` ends: by falling off the end, by `finish()`, or by another exception. */
  datatype Exit = Returned | Finished | Threw

  datatype Flow = Flow(replies: seq<Reply>, exit: Exit)

  function Pictures(imgs: seq<string>): (ps: seq<Reply>)
    ensures |ps| == |imgs|
    ensures forall i :: 0 <= i < |imgs| ==> ps[i] == Picture(imgs[i])
  {
    seq(|imgs|, i requires 0 <= i < |imgs| => Picture(imgs[i]))
  }

  /**
   The selected segment's URL fetched, when it is truthy text; otherwise
   nothing is fetched. A truthy URL that is not text makes the GET raise,
   which `download_file_from_url` turns into false.
   */
  function FetchSelected(seg: Segment, outcome: HttpOutcome): (ok: bool)
    ensures ok ==> Get(seg, "url").Str? && DownloadFromUrl(Get(seg, "url").s, outcome)
    ensures !Truthy(Get(seg, "url")) ==> !ok
    ensures Get(seg, "url").Str? && Truthy(Get(seg, "url")) ==>
      (ok <==> DownloadFromUrl(Get(seg, "url").s, outcome))
  {
    var url := Get(seg, "url");
    if !Truthy(url) then false
    else match url
      case Str(s) => DownloadFromUrl(s, outcome)
      case _ => false
  }

  /** A failure message of the pipeline. */
  predicate IsFailure(r: Reply) {
    r.DownloadFailed? || r.CopyFailed? || r.DecrypterMissing? || r.DecryptFailed? || r.NoImages? || r.Crashed?
  }

  /** The file was fetched and copied, and the decrypter exists. */
  predicate Prepared(seg: Segment, env: Env) {
    FetchSelected(seg, env.download) && env.copyOk && env.decrypterExists
  }

  /** Every step up to decryption passed: the decrypter exited with 0 and left more than 100 bytes of JSON. */
  predicate Decrypted(seg: Segment, env: Env) {
    Prepared(seg, env) && env.decryptRun == Exited(0) && env.json.Present? && env.json.size > MinJsonBytes
  }

  /**
   The handler's steps once a segment is selected. It acknowledges the file
   first; then the first step that fails sends its own failure message and
   ends the body by `finish()`, or, when every step passes, the valid images
   follow the completion message and the body returns normally. Decryption
   only counts as done when the child exited with 0. The segment is the
   selected one, so its `file_name` is stored text and the `"mysekai.bin"`
   default never applies.
   */
  function Process(seg: Segment, env: Env): (f: Flow)
    requires BinFile(seg)
    ensures "file_name" in seg.data && seg.data["file_name"].Str?
    ensures f.replies != [] && f.replies[0] == Received(seg.data["file_name"].s)
    ensures f.exit != Threw
    ensures f.exit == Finished ==> |f.replies| == 2 && IsFailure(f.replies[1])
    ensures !FetchSelected(seg, env.download) ==> f.exit == Finished && f.replies[1..] == [DownloadFailed]
    ensures FetchSelected(seg, env.download) && !env.copyOk ==> f.exit == Finished && f.replies[1..] == [CopyFailed]
    ensures FetchSelected(seg, env.download) && env.copyOk && !env.decrypterExists ==>
      f.exit == Finished && f.replies[1..] == [DecrypterMissing]
    ensures Prepared(seg, env) && !Decrypted(seg, env) ==> f.exit == Finished && f.replies[1..] == [DecryptFailed]
    ensures Decrypted(seg, env) && ValidImages(env.images, TargetImages) == [] ==>
      f.exit == Finished && f.replies[1..] == [NoImages]
    ensures f.exit == Returned <==> Decrypted(seg, env) && ValidImages(env.images, TargetImages) != []
    ensures f.exit == Returned ==> f.replies[1..] == [Done] + Pictures(ValidImages(env.images, TargetImages))
  {
    var start := [Received(FileName(seg).value)];
    if !FetchSelected(seg, env.download) then Flow(start + [DownloadFailed], Finished)
    else if !env.copyOk then Flow(start + [CopyFailed], Finished)
    else if !env.decrypterExists then Flow(start + [DecrypterMissing], Finished)
    else if !DecryptSucceeded(RunPythonScript(true, env.decryptRun), env.json) then
      Flow(start + [DecryptFailed], Finished)
    else
      var imgs := ValidImages(env.images, TargetImages);
      if imgs != [] then Flow(start + [Done] + Pictures(imgs), Returned)
      else Flow(start + [NoImages], Finished)
  }

  /**
   The body of `process_sekai_file`'s outer `try`: an exception when the
   selection raises, `finish()` without a message when no file is selected,
   and otherwise the steps on the selected segment.
   */
  function Body(message: seq<Segment>, env: Env): (f: Flow)
    ensures f.exit == Threw <==> SelectFile(message).SelectionRaised?
    ensures SelectFile(message).NothingSelected? ==> f == Flow([], Finished)
    ensures SelectFile(message).Selected? ==> f == Process(message[SelectFile(message).index], env)
  {
    match SelectFile(message)
    case SelectionRaised => Flow([], Threw)
    case NothingSelected => Flow([], Finished)
    case Selected(i) => Process(message[i], env)
  }

  /**
   `process_sekai_file` as written: `finish()` raises an exception that the
   outer `except Exception` catches, so every `finish()` of the body, like a
   real error, is followed by the crash message.
   */
  function HandleAsWritten(message: seq<Segment>, env: Env): (replies: seq<Reply>)
    ensures Body(message, env).exit != Returned ==> replies == Body(message, env).replies + [Crashed]
    ensures Body(message, env).exit == Returned ==> replies == Body(message, env).replies
  {
    var f := Body(message, env);
    if f.exit == Returned then f.replies else f.replies + [Crashed]
  }

  /**
   `process_sekai_file` with `finish()` ending the handler, as its comments
   intend: the crash message follows only an exception other than `finish()`.
   */
  function Handle(message: seq<Segment>, env: Env): (replies: seq<Reply>)
    ensures Body(message, env).exit == Threw ==> replies == [Crashed]
    ensures Body(message, env).exit != Threw ==> replies == Body(message, env).replies
  {
    var f := Body(message, env);
    if f.exit == Threw then f.replies + [Crashed] else f.replies
  }

  /** A failed download is reported as a download failure and then as a crash. */
  lemma FinishReportedAsCrash()
    ensures var seg := Segment("file", map["file_name" := Str("a.bin"), "url" := Str("u")]);
      var env := Env(Responded(404, 0), true, true, Exited(0), Present(200), map[]);
      && HandleAsWritten([seg], env) == [Received("a.bin"), DownloadFailed, Crashed]
      && Handle([seg], env) == [Received("a.bin"), DownloadFailed]
  {
    var seg := Segment("file", map["file_name" := Str("a.bin"), "url" := Str("u")]);
    assert Text.EndsWith("a.bin", BinSuffix) by {
      assert "a.bin"[1..] == BinSuffix;
    }
    assert SelectFile([seg]) == Selected(0);
    assert !DownloadFromUrl("u", Responded(404, 0));
  }

  /** A decrypter that exits with 1 is reported as a decryption failure and then as a crash. */
  lemma DecryptFailureReportedAsCrash()
    ensures var seg := Segment("file", map["file_name" := Str("a.bin"), "url" := Str("u")]);
      var env := Env(Responded(200, 500), true, true, Exited(1), Present(200), map[]);
      && HandleAsWritten([seg], env) == [Received("a.bin"), DecryptFailed, Crashed]
      && Handle([seg], env) == [Received("a.bin"), DecryptFailed]
  {
    var seg := Segment("file", map["file_name" := Str("a.bin"), "url" := Str("u")]);
    assert Text.EndsWith("a.bin", BinSuffix) by {
      assert "a.bin"[1..] == BinSuffix;
    }
    assert SelectFile([seg]) == Selected(0);
  }

  /**
   The `if not file_seg` branch, meant as a silent end, cannot be reached
   behind the rule: an accepted message always selects a segment. Were it
   reached, it would send the crash message as written, and nothing when
   corrected.
   */
  lemma SilentEndIsNotSilent(e: Event, env: Env)
    ensures IsValidSekaiFile(e) == Accept ==> Body(e.message, env) != Flow([], Finished)
    ensures HandleAsWritten([], env) == [Crashed]
    ensures Handle([], env) == []
  {
    if IsValidSekaiFile(e) == Accept {
      AcceptedImpliesSelected(e.message);
    }
  }

  /**
   A picture is sent only after a fetched download, a successful copy and a
   clean decryption, and only for a valid target image; the pictures are
   exactly the valid target images, in list order, after the completion
   message.
   */
  lemma PicturesOnlyOnSuccess(message: seq<Segment>, env: Env, x: string)
    requires Picture(x) in Handle(message, env)
    ensures SelectFile(message).Selected?
    ensures FetchSelected(message[SelectFile(message).index], env.download)
    ensures env.copyOk && env.decrypterExists && env.decryptRun == Exited(0)
    ensures x in TargetImages && ValidImage(env.images, x)
    ensures Handle(message, env)[1..] == [Done] + Pictures(ValidImages(env.images, TargetImages))
  {
    var replies := Handle(message, env);
    var k :| 0 <= k < |replies| && replies[k] == Picture(x);
    assert k >= 2;
    var imgs := ValidImages(env.images, TargetImages);
    assert replies[k] == Pictures(imgs)[k - 2];
  }

  /** The handler, corrected, sends at most one failure message, always last. */
  lemma AtMostOneFailure(message: seq<Segment>, env: Env)
    ensures var replies := Handle(message, env);
      forall i :: 0 <= i < |replies| && IsFailure(replies[i]) ==> i == |replies| - 1
  {
    var replies := Handle(message, env);
    if Body(message, env).exit == Returned {
      var imgs := ValidImages(env.images, TargetImages);
      forall i | 2 <= i < |replies|
        ensures !IsFailure(replies[i])
      {
        assert replies[1..][i - 1] == replies[i];
      }
    }
  }

  /** As written, a failed step sends two failure messages: its own and the crash message. */
  lemma AsWrittenFailsTwice(message: seq<Segment>, env: Env)
    requires Body(message, env).exit == Finished && Body(message, env).replies != []
    ensures var replies := HandleAsWritten(message, env);
      |replies| == 3 && IsFailure(replies[1]) && IsFailure(replies[2])
  {
  }

  /** An event the rule accepted always gets an acknowledgement naming its `.bin` file. */
  lemma AcceptedIsAcknowledged(message: seq<Segment>, env: Env)
    requires FileScan(message) == Accept
    ensures var replies := Handle(message, env);
      replies != [] && replies[0].Received? && Text.EndsWith(replies[0].fileName, BinSuffix)
  {
    AcceptedImpliesSelected(message);
  }
}

=== FILE: outcomes.dfy ===
/**
 The threshold and classification rules of the plugin's handler, as pure
 functions of abstract outcomes: how an HTTP download ended, how a child
 Python process ended, and which files exist with which sizes.
 */
module Outcomes {

  /** How fetching a URL into a file ended: a status with the bytes saved, or an exception. */
  datatype HttpOutcome = Responded(status: int, savedBytes: nat) | Broken

  /** The smallest download accepted, in bytes. */
  const MinDownloadBytes: nat := 100

  /**
   `download_file_from_url`: an empty URL, a status other than 200, an
   exception on the way, or a saved file under 100 bytes is a failure.
   */
  function DownloadFromUrl(url: string, outcome: HttpOutcome): (ok: bool)
    ensures url == [] ==> !ok
    ensures ok <==> url != [] && outcome.Responded? && outcome.status == 200 && outcome.savedBytes >= MinDownloadBytes
  {
    if url == [] then false
    else match outcome
      case Broken => false
      case Responded(status, saved) => status == 200 && saved >= MinDownloadBytes
  }

  /**
   The size threshold of a download: with a non-empty URL and status 200, a
   file of 100 bytes is the smallest accepted and 99 bytes are rejected, and
   a file that is accepted stays accepted at any larger size.
   */
  lemma DownloadSizeThreshold(url: string, saved: nat, larger: nat)
    requires url != [] && saved <= larger
    ensures DownloadFromUrl(url, Responded(200, MinDownloadBytes))
    ensures !DownloadFromUrl(url, Responded(200, MinDownloadBytes - 1))
    ensures DownloadFromUrl(url, Responded(200, saved)) ==> DownloadFromUrl(url, Responded(200, larger))
    ensures DownloadFromUrl(url, Responded(200, saved)) <==> MinDownloadBytes <= saved
  {
  }

  /** How a child process ended: with an exit code, past the timeout, or by an exception. */
  datatype ChildRun = Exited(code: int) | TimedOut | Failed

  const ScriptMissing: int := -1
  const ScriptTimedOut: int := -2
  const ScriptFailed: int := -3

  /**
   `run_python_script`: -1 when the script does not exist, -2 on timeout, -3
   on any other exception, and otherwise the child's own return code.
   */
  function RunPythonScript(scriptExists: bool, run: ChildRun): (rc: int)
    ensures !scriptExists ==> rc == ScriptMissing
    ensures scriptExists && run.Exited? ==> rc == run.code
    ensures scriptExists && run.TimedOut? ==> rc == ScriptTimedOut
    ensures scriptExists && run.Failed? ==> rc == ScriptFailed
  {
    if !scriptExists then ScriptMissing
    else match run
      case Exited(code) => code
      case TimedOut => ScriptTimedOut
      case Failed => ScriptFailed
  }

  /** A zero return code means the script existed and its child exited with 0. */
  lemma ZeroMeansExited(scriptExists: bool, run: ChildRun)
    requires RunPythonScript(scriptExists, run) == 0
    ensures scriptExists && run == Exited(0)
  {
  }

  /**
   The sentinels share the return-code space with the child: a child that
   exits with -2 is reported exactly as a timeout, and one that exits with -1
   exactly as a missing script.
   */
  lemma SentinelsCollide()
    ensures RunPythonScript(true, Exited(-2)) == RunPythonScript(true, TimedOut)
    ensures RunPythonScript(true, Exited(-1)) == RunPythonScript(false, Failed)
  {
  }

  /** Whether a file exists, and its size when it does. */
  datatype FileStat = Absent | Present(size: nat)

  /** The decrypted JSON must be larger than this many bytes. */
  const MinJsonBytes: nat := 100

  /** Decryption succeeded: return code 0 and a JSON file of more than 100 bytes. */
  function DecryptSucceeded(rc: int, json: FileStat): (ok: bool)
    ensures ok <==> rc == 0 && json.Present? && json.size > MinJsonBytes
  {
    !(rc != 0 || !(json.Present? && json.size > MinJsonBytes))
  }

  /**
   The decrypter's outcome as the handler sees it: success needs a child that
   exited with 0, however large the JSON file left behind.
   */
  lemma DecryptNeedsCleanExit(run: ChildRun, json: FileStat)
    ensures DecryptSucceeded(RunPythonScript(true, run), json) ==> run == Exited(0)
    ensures run == Exited(0) ==> (DecryptSucceeded(RunPythonScript(true, run), json) <==> json.Present? && json.size > MinJsonBytes)
  {
  }

  /** An output image counts when it exists with more than this many bytes. */
  const MinImageBytes: nat := 1000

  const MapsImage: string := "output_maps.png"
  const SummaryImage: string := "output_summary.png"

  /** `TARGET_IMGS`: the merged map first, then the summary chart. */
  const TargetImages: seq<string> := [MapsImage, SummaryImage]

  /** The project directory after the analyser ran: each file present, with its size. */
  type Disk = map<string, nat>

  predicate ValidImage(disk: Disk, name: string) {
    name in disk && disk[name] > MinImageBytes
  }

  /** `ys` keeps some of the elements of `xs`, in their order in `xs`. */
  predicate Subsequence(ys: seq<string>, xs: seq<string>)
    decreases |xs|
  {
    if ys == [] then true
    else if xs == [] then false
    else if ys[0] == xs[0] then Subsequence(ys[1..], xs[1..])
    else Subsequence(ys, xs[1..])
  }

  /** The images among `names` that are valid on `disk`, in the order of `names`. */
  function ValidImages(disk: Disk, names: seq<string>): (imgs: seq<string>)
    ensures forall x :: x in imgs <==> x in names && ValidImage(disk, x)
    ensures Subsequence(imgs, names)
    ensures |imgs| <= |names|
    decreases |names|
  {
    if names == [] then []
    else
      var rest := ValidImages(disk, names[1..]);
      if ValidImage(disk, names[0]) then [names[0]] + rest else rest
  }

  /**
   The images the handler sends: each target image that exists with more than
   1000 bytes, the merged map before the summary.
   */
  lemma TargetImagesInOrder(disk: Disk)
    ensures ValidImages(disk, TargetImages) ==
      (if ValidImage(disk, MapsImage) then [MapsImage] else []) +
      (if ValidImage(disk, SummaryImage) then [SummaryImage] else [])
  {
    assert TargetImages[1..] == [SummaryImage];
    assert TargetImages[1..][1..] == [];
  }
}

=== FILE: path_sets.dfy ===
/**
 Building blocks for the sets of relative asset paths: families of paths
 indexed by a number range (`{f"pre{i}suf" for i in range(lo, hi)}`), the
 union a `for record in table: paths.add(...)` loop accumulates, and
 duplicate-free enumerations of a set (the order a `for path in paths` loop
 visits it in).
 */
module PathSets {
  import Decimal
  import Text

  /** `f"{prefix}{i}{suffix}"`. */
  function Member(prefix: string, suffix: string, i: nat): string {
    prefix + Decimal.NatToString(i) + suffix
  }

  /** `{f"{prefix}{i}{suffix}" for i in range(lo, hi)}`. */
  function Family(prefix: string, suffix: string, lo: nat, hi: nat): set<string> {
    set i: nat | lo <= i < hi :: Member(prefix, suffix, i)
  }

  /** The members of a family are exactly the paths for the numbers of its range. */
  lemma FamilyMembers(prefix: string, suffix: string, lo: nat, hi: nat, x: string)
    ensures x in Family(prefix, suffix, lo, hi) <==> exists i :: lo <= i < hi && x == Member(prefix, suffix, i)
  {
  }

  /** Different numbers give different paths. */
  lemma MemberInjective(prefix: string, suffix: string, a: nat, b: nat)
    requires Member(prefix, suffix, a) == Member(prefix, suffix, b)
    ensures a == b
  {
    var x := Member(prefix, suffix, a);
    var da, db := Decimal.NatToString(a), Decimal.NatToString(b);
    assert |da| == |db|;
    assert x[|prefix|..|x| - |suffix|] == da;
    assert x[|prefix|..|x| - |suffix|] == db;
    Decimal.NatToStringInjective(a, b);
  }

  /** A family over `range(lo, hi)` has exactly `hi - lo` members. */
  lemma {:induction false} FamilySize(prefix: string, suffix: string, lo: nat, hi: nat)
    requires lo <= hi
    ensures |Family(prefix, suffix, lo, hi)| == hi - lo
    decreases hi
  {
    if hi > lo {
      var last := Member(prefix, suffix, hi - 1);
      var init := Family(prefix, suffix, lo, hi - 1);
      FamilySize(prefix, suffix, lo, hi - 1);
      assert Family(prefix, suffix, lo, hi) == init + {last};
      if last in init {
        var i :| lo <= i < hi - 1 && last == Member(prefix, suffix, i);
        MemberInjective(prefix, suffix, i, hi - 1);
      }
    }
  }

  /** Every member of a family starts with its prefix. */
  lemma FamilyPrefix(prefix: string, suffix: string, lo: nat, hi: nat, x: string)
    requires x in Family(prefix, suffix, lo, hi)
    ensures Text.StartsWith(x, prefix)
  {
    FamilyMembers(prefix, suffix, lo, hi, x);
    var i :| lo <= i < hi && x == Member(prefix, suffix, i);
    assert x[..|prefix|] == prefix;
  }

  /** The set `for r in rs: paths.update(paths_of(r))` accumulates, in loop order. */
  function UnionOver<R>(rs: seq<R>, pathsOf: R -> set<string>): set<string> {
    if rs == [] then {} else UnionOver(rs[..|rs| - 1], pathsOf) + pathsOf(rs[|rs| - 1])
  }

  /** A path is in the union exactly when some record of the table contributes it. */
  lemma {:induction false} UnionOverMembers<R>(rs: seq<R>, pathsOf: R -> set<string>, x: string)
    ensures x in UnionOver(rs, pathsOf) <==> exists i :: 0 <= i < |rs| && x in pathsOf(rs[i])
  {
    if rs != [] {
      var init := rs[..|rs| - 1];
      UnionOverMembers(init, pathsOf, x);
      if exists i :: 0 <= i < |rs| && x in pathsOf(rs[i]) {
        var i :| 0 <= i < |rs| && x in pathsOf(rs[i]);
        if i < |rs| - 1 {
          assert init[i] == rs[i];
        }
      }
      if exists i :: 0 <= i < |init| && x in pathsOf(init[i]) {
        var i :| 0 <= i < |init| && x in pathsOf(init[i]);
        assert rs[i] == init[i];
      }
    }
  }

  /** `s` visits every element of `xs` exactly once. */
  predicate Enumerates(s: seq<string>, xs: set<string>) {
    multiset(s) == multiset(xs)
  }

  /** A loop over a set runs once per element. */
  lemma EnumerationSize(s: seq<string>, xs: set<string>)
    requires Enumerates(s, xs)
    ensures |s| == |xs|
  {
    MultisetOfSetSize(xs);
  }

  lemma {:induction false} MultisetOfSetSize(xs: set<string>)
    ensures |multiset(xs)| == |xs|
    decreases |xs|
  {
    if xs != {} {
      var x :| x in xs;
      MultisetOfSetSize(xs - {x});
      assert multiset(xs) == multiset(xs - {x}) + multiset{x};
    }
  }
}

=== FILE: rules.dfy ===
/**
 The two standalone rules of `rules.py`: the reply-to-file rule, whose scan
 gives up at the first segment that is not a reply and so never reaches its
 file test, and the whitelist rule.
 */
module Rules {
  import opened Wrappers
  import opened Events

  /**
   The loop of `is_reply_to_sekai_file._check` over the segments. The file
   test sits under `seg.type == "file"` after every other type has already
   returned false, so that branch is dead; it is kept, with the file verdict
   falling through to the rest of the scan as `_check` has it.
   */
  function ReplyScan(message: seq<Segment>): (v: Verdict)
    ensures message == [] ==> v == Reject
    ensures message != [] && message[0].kind != "reply" ==> v == Reject
    decreases |message|
  {
    if message == [] then Reject
    else
      var seg := message[0];
      if seg.kind != "reply" then Reject
      else
        var check := if seg.kind == "file" then FileCheck(seg) else Some(false);
        match check
        case None => Raise
        case Some(matched) => if matched then Accept else ReplyScan(message[1..])
  }

  /** `is_reply_to_sekai_file._check`. */
  function IsReplyToSekaiFile(e: Event): (v: Verdict)
    ensures !IsGroupMessage(e) ==> v == Reject
    ensures IsGroupMessage(e) ==> v == ReplyScan(e.message)
  {
    if !IsGroupMessage(e) then Reject else ReplyScan(e.message)
  }

  /** However many reply segments lead the message, the scan ends in false. */
  lemma {:induction false} ReplyScanRejects(message: seq<Segment>)
    ensures ReplyScan(message) == Reject
    decreases |message|
  {
    if message != [] && message[0].kind == "reply" {
      ReplyScanRejects(message[1..]);
    }
  }

  /** The reply rule accepts no event at all, and never raises. */
  lemma ReplyRuleNeverAccepts(e: Event)
    ensures IsReplyToSekaiFile(e) == Reject
  {
    if IsGroupMessage(e) {
      ReplyScanRejects(e.message);
    }
  }

  /** `config.msa_white_list or []`: a `None` or empty setting is the empty list. */
  function Whitelist(configured: Option<seq<int>>): (w: seq<int>)
    ensures configured.None? ==> w == []
    ensures configured.Some? ==> w == configured.value
  {
    configured.GetOr([])
  }

  /**
   `is_valid_user._check`: an empty whitelist admits every event, a non-empty
   one exactly the users it lists; nothing but the user id is consulted, and
   under a non-empty whitelist an event without one raises.
   */
  function IsValidUser(whitelist: seq<int>, e: Event): (v: Verdict)
    ensures whitelist == [] ==> v == Accept
    ensures whitelist != [] ==> (v == Raise <==> e.userId.None?)
    ensures whitelist != [] && e.userId.Some? ==>
      (v == Accept <==> exists i :: 0 <= i < |whitelist| && whitelist[i] == e.userId.value)
  {
    if whitelist == [] then Accept
    else match e.userId
      case None => Raise
      case Some(u) => if u in whitelist then Accept else Reject
  }

  /**
   The events the whitelist rule admits under a configured setting: every
   event when the setting is `None` or empty, and otherwise exactly those
   from the users it lists, an event without a user raising.
   */
  lemma WhitelistAdmits(configured: Option<seq<int>>, e: Event)
    ensures configured.None? || configured.value == [] ==> IsValidUser(Whitelist(configured), e) == Accept
    ensures configured.Some? && configured.value != [] ==>
      && (IsValidUser(Whitelist(configured), e) == Raise <==> e.userId.None?)
      && (IsValidUser(Whitelist(configured), e) == Accept <==> e.userId.Some? && e.userId.value in configured.value)
  {
  }
}

=== FILE: text.dfy ===
/**
 String predicates the plugin relies on: `str.endswith`, and the
 `str.replace("_rip", "")` normalisation applied to every asset path.
 */
module Text {

  /** `s.startswith(prefix)`. */
  predicate StartsWith(s: string, prefix: string) {
    |prefix| <= |s| && s[..|prefix|] == prefix
  }

  /** `s.endswith(suffix)`. */
  predicate EndsWith(s: string, suffix: string) {
    |suffix| <= |s| && s[|s| - |suffix|..] == suffix
  }

  const Rip: string := "_rip"

  /** An occurrence of `_rip` starts at index `i` of `s`. */
  predicate RipAt(s: string, i: int) {
    0 <= i && i + 4 <= |s| && s[i..i + 4] == Rip
  }

  predicate RipFree(s: string) {
    forall i {:trigger RipAt(s, i)} :: 0 <= i < |s| ==> !RipAt(s, i)
  }

  /** Number of occurrences of `_rip` in `s`, counted at every index. */
  function CountRip(s: string): nat {
    if s == [] then 0 else (if RipAt(s, 0) then 1 else 0) + CountRip(s[1..])
  }

  /**
   `s.replace("_rip", "")`: scans left to right and deletes each occurrence
   it meets; the characters around a deleted occurrence are not rescanned.
   */
  function DeleteRip(s: string): (r: string)
    ensures |r| <= |s|
  {
    if RipAt(s, 0) then DeleteRip(s[4..])
    else if s == [] then []
    else [s[0]] + DeleteRip(s[1..])
  }

  /** `_rip` cannot overlap itself: an occurrence at 0 hides none at 1, 2 or 3. */
  lemma CountRipSkip(s: string)
    requires RipAt(s, 0)
    ensures CountRip(s) == 1 + CountRip(s[4..])
  {
    assert s[1] == 'r' && s[2] == 'i' && s[3] == 'p';
    var s1, s2, s3 := s[1..], s[2..], s[3..];
    assert s1[1..] == s2 && s2[1..] == s3 && s3[1..] == s[4..];
    assert !RipAt(s1, 0) && !RipAt(s2, 0) && !RipAt(s3, 0);
    assert CountRip(s3) == CountRip(s[4..]);
    assert CountRip(s2) == CountRip(s3);
    assert CountRip(s1) == CountRip(s2);
  }

  /** Every occurrence is deleted: the result is four characters shorter per occurrence. */
  lemma {:induction false} DeleteRipLength(s: string)
    ensures |DeleteRip(s)| == |s| - 4 * CountRip(s)
  {
    if RipAt(s, 0) {
      CountRipSkip(s);
      DeleteRipLength(s[4..]);
    } else if s != [] {
      DeleteRipLength(s[1..]);
    }
  }

  /**
   The first occurrence is deleted and everything before it is kept: after a
   prefix free of `_rip`, an occurrence is removed and the scan resumes right
   after it, as `str.replace` does.
   */
  lemma {:induction false} DeleteRipFirst(a: string, b: string)
    requires RipFree(a)
    ensures DeleteRip(a + Rip + b) == a + DeleteRip(b)
    decreases |a|
  {
    if a == [] {
      assert a + Rip + b == Rip + b;
      DeleteRipAtStart(b);
    } else {
      var t := a[1..] + Rip + b;
      assert a + Rip + b == [a[0]] + t;
      NoRipAtJoin(a, Rip + b);
      assert a + (Rip + b) == [a[0]] + t;
      DeleteRipCons(a[0], t);
      RipFreeUnfold(a);
      DeleteRipFirst(a[1..], b);
      assert [a[0]] + (a[1..] + DeleteRip(b)) == a + DeleteRip(b);
    }
  }

  /** An occurrence at the start is deleted and the scan resumes after it. */
  lemma DeleteRipAtStart(b: string)
    ensures DeleteRip(Rip + b) == DeleteRip(b)
  {
    var s := Rip + b;
    assert s[0..4] == Rip && s[4..] == b;
  }

  /** A character that does not start an occurrence is kept. */
  lemma DeleteRipCons(x: char, t: string)
    requires !RipAt([x] + t, 0)
    ensures DeleteRip([x] + t) == [x] + DeleteRip(t)
  {
    assert ([x] + t)[1..] == t;
  }

  /** A non-empty prefix free of `_rip` cannot start an occurrence that reaches into an occurrence after it. */
  lemma NoRipAtJoin(a: string, c: string)
    requires a != [] && RipFree(a)
    requires |c| >= 4 && c[..4] == Rip
    ensures !RipAt(a + c, 0)
  {
    var s := a + c;
    if |a| >= 4 {
      assert s[0..4] == a[0..4];
      assert !RipAt(a, 0);
    } else {
      assert s[|a|] == c[0] == '_';
    }
  }

  /** An occurrence in `s[1..]` is an occurrence in `s`, one index later. */
  lemma RipAtShift(s: string, j: nat)
    requires s != []
    ensures RipAt(s[1..], j) <==> RipAt(s, j + 1)
  {
    if j + 5 <= |s| {
      assert s[1..][j..j + 4] == s[j + 1..j + 5];
    }
  }

  /** `s` is free of `_rip` exactly when it does not start with one and its tail is free of it. */
  lemma RipFreeUnfold(s: string)
    requires s != []
    ensures RipFree(s) <==> !RipAt(s, 0) && RipFree(s[1..])
  {
    if RipFree(s) {
      forall j | 0 <= j < |s| - 1
        ensures !RipAt(s[1..], j)
      {
        RipAtShift(s, j);
      }
    }
    if !RipAt(s, 0) && RipFree(s[1..]) {
      forall i | 0 <= i < |s|
        ensures !RipAt(s, i)
      {
        if i > 0 {
          RipAtShift(s, i - 1);
        }
      }
    }
  }

  lemma {:induction false} CountRipZero(s: string)
    ensures CountRip(s) == 0 <==> RipFree(s)
  {
    if s != [] {
      CountRipZero(s[1..]);
      RipFreeUnfold(s);
    }
  }

  /** The normalisation changes a path exactly when it contains `_rip`. */
  lemma DeleteRipIdentity(s: string)
    ensures DeleteRip(s) == s <==> RipFree(s)
  {
    DeleteRipLength(s);
    CountRipZero(s);
    if RipFree(s) {
      RipFreeUnchanged(s);
    }
  }

  lemma {:induction false} RipFreeUnchanged(s: string)
    requires RipFree(s)
    ensures DeleteRip(s) == s
  {
    if s != [] {
      RipFreeUnfold(s);
      RipFreeUnchanged(s[1..]);
    }
  }

  /**
   The normalisation is not idempotent: deleting an inner `_rip` can join the
   characters around it into a new occurrence.
   */
  lemma DeleteRipNotIdempotent()
    ensures DeleteRip("_r_ripip") == "_rip"
    ensures DeleteRip(DeleteRip("_r_ripip")) == ""
  {
    var s := "_r_ripip";
    assert s[0..4][2] != Rip[2];
    assert s[1..][0..4][0] != Rip[0];
    assert RipAt(s[2..], 0);
    assert s[2..][4..] == "ip";
    assert !RipAt("ip", 0) && !RipAt("p", 0);
    assert DeleteRip("ip") == "ip";
    assert DeleteRip(s) == "_r" + "ip";
    assert RipAt("_rip", 0);
    assert "_rip"[4..] == "";
  }
}

=== FILE: wrappers.dfy ===
/** Optional values shared by every module of the model. */
module Wrappers {

  /** Python's `None`, or a value. */
  datatype Option<+T> = None | Some(value: T) {

    /** The value, or `default` when there is none (`x or default`). */
    function GetOr(default: T): T {
      match this
      case Some(v) => v
      case None => default
    }
  }
}
